=== FILE: README.md ===
# Task timeline: a verified model of its calendar and grouping logic

The Obsidian task-view plugin draws a list of tasks as a timeline. There are
two views. The React component `TaskView` in `src/components/TaskView.tsx`
sorts the tasks newest first. Before each task's card it shows a year header,
a month header and a date header whenever these change from the previous
task. A date header carries an ISO 8601 week badge (`2024-W25`) when the week
number changes. `src/TaskView.ts` holds a second, imperative view, which
neither `main.ts` nor `src/main.ts` registers. It sorts the tasks oldest
first. It builds one timeline item per task, with a connecting line on
every item but the last. It also toggles a `narrow` class on its container
when the width drops below 600 pixels.

This project models that logic as pure Dafny functions over immutable data
and proves what the code promises:

- `calendar.dfy` (`Calendar`): proleptic Gregorian dates, day numbers since
  1970-01-01, weekdays, and the day roll-over that `setUTCDate` performs.
- `isoweek.dfy` (`IsoWeek`): `getWeekNumber`. The weekday with Sunday as 7,
  the Thursday anchor, and `ceil(ordinal / 7)`. Also the as-written variant
  with `Date.UTC`'s two-digit-year reading.
- `text.dfy` (`Wrappers`, `Decimal`): `Option`, decimal `toString` and
  `padStart`, and the digit reading that inverts them.
- `sorting.dfy` (`Sorting`): `Array.prototype.sort` with a numeric
  comparator. It is stable since ECMAScript 2019. It is modelled as an
  insertion sort, and the model proves that no other stable result exists.
- `tasks.dfy` (`Tasks`): the task record, its `YYYY-MM-DD` date text, the two
  date sorts, the time-range text and the `#tag` texts.
- `timeline.dfy` (`Timeline`): the React view as a function from the task
  list to rows of optional headers and a card.
- `itemview.dfy` (`ItemView`): the imperative view's items and
  `adjustLayout`.

Dates are modelled as `(year, month, day)` triples. A time value is the day
number times 86 400 000 ms. Every time difference in the code is between UTC
midnights, so millisecond arithmetic reduces exactly to whole days. A task's
`date` string is a `TaskDate`, a valid date with a year from 0 to 9999.
`DateText` spells it and `ParseDate` reads it back.

## Model

| member | source | states |
|---|---|---|
| Calendar.DayNumberOrder | src/components/TaskView.tsx:132 | comparing `getTime()` of two dates compares them in calendar order, and equal times mean the same date |
| Calendar.AddDays | src/components/TaskView.tsx:172 | `setUTCDate(getUTCDate() + k)` lands exactly `k` days later, rolling over month and year ends in both directions |
| Calendar.SetDateIsAddDays | src/components/TaskView.tsx:172 | setting day `n` of a month counts `n - 1` days from its first, whatever the sign or size of `n` |
| Calendar.WeekdayShift | src/components/TaskView.tsx:171 | `getUTCDay()` advances by one per day, modulo 7 |
| Calendar.DaysBeforeYearStep | src/components/TaskView.tsx:173 | the first of January of the next year is one year's length (365 or 366 days) later |
| IsoWeek.IsoWeekday | src/components/TaskView.tsx:171 | `getUTCDay() \|\| 7` lies in 1..7 and agrees with the weekday modulo 7, so Sunday becomes 7 |
| IsoWeek.ThursdayOf | src/components/TaskView.tsx:172 | the anchor `d + 4 - dayNum` is a Thursday in the same Monday-to-Sunday week, within three days of `d` |
| IsoWeek.OrdinalDay | src/components/TaskView.tsx:173-174 | `(d - yearStart) / 86400000 + 1` is the 1-based day of the year, between 1 and the year's length |
| IsoWeek.CeilDiv | src/components/TaskView.tsx:174 | `Math.ceil(a / b)` is the least `q` with `a <= b * q` |
| IsoWeek.WeekNumber | src/components/TaskView.tsx:169-175 | the week number always lies in 1..53 |
| IsoWeek.WeekNumberOfThursday | src/components/TaskView.tsx:173-174 | the week number is the week of the year that holds the Thursday: `7(w-1) < ordinal <= 7w` |
| IsoWeek.WeekNumberCountsFromJanuary4 | src/components/TaskView.tsx:169-175 | reference definition: whole weeks since the week of 4 January of the week-numbering year, plus one |
| IsoWeek.January4InWeek1 | src/components/TaskView.tsx:169-175 | 4 January is always in week 1 of its own year |
| IsoWeek.December28InOwnWeekYear | src/components/TaskView.tsx:169-175 | 28 December always belongs to its own week-numbering year |
| IsoWeek.SameWeekIffSameNumber | src/components/TaskView.tsx:169-175 | two dates share a Monday-to-Sunday week exactly when they share week-numbering year and week number |
| IsoWeek.NextWeekNumber | src/components/TaskView.tsx:169-175 | the following week has the next number in the same year, or is week 1 of the next year |
| IsoWeek.WeekNumberAsWritten | src/components/TaskView.tsx:169-175 | `getWeekNumber` as written, with both `Date.UTC` calls: for every year outside -1..100 it equals the ISO week `IsoWeek.WeekNumber` |
| IsoWeek.UtcDate | src/components/TaskView.tsx:170 | `Date.UTC(y, m - 1, d)` is day `d` of the month counted in the year `Date.UTC` reads, with years 0..99 read as 1900..1999 |
| IsoWeek.AsWrittenMisnumbersYear4 | src/components/TaskView.tsx:170 | for 0004-01-01 the code as written returns 53 where the ISO week is 1 |
| IsoWeek.AsWrittenLeavesRangeInYear100 | src/components/TaskView.tsx:173-174 | for 0100-01-01 the code as written returns -99085, outside 1..53 |
| Timeline.WeekDayLabelNamesWeekday | src/components/TaskView.tsx:177-180 | `周` plus the day's name: equal labels exactly for equal weekdays, and `周日` exactly on Sundays |
| Timeline.WeekDayLabelWeekly | src/components/TaskView.tsx:177-180 | dates a whole number of weeks apart get the same label |
| Timeline.WeekDayLabel | src/components/TaskView.tsx:177-180 | `getWeekDay` is `周` followed by one day name; `Timeline.WeekDayLabelTable` fixes which |
| Timeline.WeekDayLabelTable | src/components/TaskView.tsx:178-179 | the full table: `周日` exactly on Sunday, `周一` exactly on Monday, and so on to `周六` exactly on Saturday |
| Timeline.StatusIcon | src/components/TaskView.tsx:199 | the icon class always starts with `task-icon ` |
| Timeline.StatusIconTable | src/components/TaskView.tsx:182-200 | `todo`, `in-progress` and `done` get `task-` plus their name as class suffix and three distinct icons; the glyph is `☐` exactly for `todo`, `✓` exactly for `done`, and empty for every other status, `in-progress` included; any unknown status gets an empty suffix |
| Timeline.WeekLabel | src/components/TaskView.tsx:208 | the badge text is the year's `toString()`, then `-W`, then two digits whose value is the week (zero-padded) |
| Timeline.WeekBadge | src/components/TaskView.tsx:202-211 | a date's badge is its calendar year's digits, then `-W`, then two digits whose value is the date's week number (see "## Left out" for years 0..100) |
| Timeline.WeekLabelNamesYearAndWeek | src/components/TaskView.tsx:208 | the badge `${year}-W${ww}` determines the year and the week number, and is determined by them |
| Timeline.LabelOfWeek1In2024 | src/components/TaskView.tsx:208 | week 1 of 2024 is written `2024-W01` (zero-padded to two digits) |
| Timeline.LateDecemberBadge | src/components/TaskView.tsx:203-208 | 2024-12-30 is in ISO week 1 of 2025, yet its badge reads `2024-W01`: the badge pairs the week with `getFullYear()` |
| Timeline.ShowYear | src/components/TaskView.tsx:223 | `showYear` holds on the first row and otherwise exactly when the year differs from the previous task's (the year strings compared are equal only for equal years) |
| Timeline.ShowMonth | src/components/TaskView.tsx:224 | `showMonth` holds on the first row and otherwise exactly when the year or the month differs from the previous task's |
| Timeline.ShowDate | src/components/TaskView.tsx:225 | `showDate` holds on the first row and otherwise exactly when the date differs from the previous task's (the `date` strings compared are equal only for equal dates) |
| Timeline.ShowWeek | src/components/TaskView.tsx:205 | `showWeek` holds on the first row; within one week-numbering year it holds exactly when the task starts a new Monday-to-Sunday week |
| Timeline.RowWeekBadge | src/components/TaskView.tsx:205 | after the first row, a row with a date header carries a badge exactly when its week number differs from the previous task's (the year is not compared) |
| Timeline.RenderRow | src/components/TaskView.tsx:217-260 | the `tasks.map` body; its card is the task's card, a year header shows the year's `toString()`, a month header the task's (year, month), a date header has `data-date` equal to the task's date text and shows that text, a space and the weekday label; when the headers appear is characterised by `Timeline.HeadersNest`, `Timeline.RowYearHeader`, `Timeline.RowDateHeader` and `Timeline.WeekBadgeInDateHeader` |
| Timeline.Render | src/components/TaskView.tsx:217-260 | one row per task in list order; what the rows show is stated by the header lemmas below (`Timeline.DateHeaderAtFirstOccurrence`, `Timeline.OneDateHeaderPerDate`) |
| Timeline.Mounted | src/components/TaskView.tsx:131-134 | the timeline after the mount effect's sort; the order is stated by `Tasks.SortNewestFirstCharacterized` |
| Timeline.HeadersNest | src/components/TaskView.tsx:223-225 | a year header comes with a month header, a month header with a date header, and the first row has all three, its date header carrying a week badge |
| Timeline.RowYearHeader | src/components/TaskView.tsx:223 | after the first row, a year header appears exactly when the year differs from the previous task's |
| Timeline.RowDateHeader | src/components/TaskView.tsx:225 | after the first row, a date header appears exactly when the date differs from the previous task's |
| Timeline.SortedGroupsDates | src/components/TaskView.tsx:132 | a date-sorted list keeps each date's tasks next to each other |
| Timeline.DateHeaderAtFirstOccurrence | src/components/TaskView.tsx:225 | on such a list a row has a date header exactly when its task is the first of its date |
| Timeline.OneDateHeaderPerDate | src/components/TaskView.tsx:225-240 | on such a list the date headers are exactly as many as the distinct dates |
| Timeline.DateHeaderUnique | src/components/TaskView.tsx:225 | a later task of an already-seen date gets no date header |
| Timeline.WeekBadgeInDateHeader | src/components/TaskView.tsx:235-237 | a week badge appears only inside a date header, and it is the badge of that row's own date |
| Timeline.NoBadgeWithinWeek | src/components/TaskView.tsx:205 | a task in the same Monday-to-Sunday week as the previous one never gets a badge |
| Timeline.BadgeOnNewWeek | src/components/TaskView.tsx:205-209 | a task in a new week of the same week-numbering year gets a date header with a badge |
| Timeline.BadgeComparesWeekNumberOnly | src/components/TaskView.tsx:205 | a task of another year but the same week number as the previous one opens a year header and gets no badge |
| Timeline.JuneWeeks | src/components/TaskView.tsx:205 | 2024-06-19 and 2023-06-21 are both in week 25, so such neighbours exist |
| Tasks.SortNewestFirst | src/components/TaskView.tsx:132 | the mounted list is a permutation of the tasks, newest date first |
| Tasks.SortNewestFirstCharacterized | src/components/TaskView.tsx:132 | the sorted list is the only newest-first rearrangement that keeps each date's tasks in their original order |
| Tasks.SortsAreStable | src/components/TaskView.tsx:132 | both sorts keep the tasks of one date in their original order |
| Sorting.SortCharacterized | src/components/TaskView.tsx:132 | a stable sort by a numeric key has exactly one result: the sorted sequence that keeps each key's elements in input order |
| Sorting.SortIdempotent | src/TaskView.ts:86 | sorting a sorted sequence again returns it unchanged |
| Tasks.ParseDate | src/components/TaskView.tsx:218 | a string reads as a date only if it has the `YYYY-MM-DD` shape and is exactly that date's text |
| Tasks.ParseDateInverse | src/components/TaskView.tsx:218 | a string reads as date `d` exactly when it is `d`'s text |
| Tasks.ParseDateText | src/components/TaskView.tsx:218 | reading a task's `YYYY-MM-DD` text gives its date back |
| Tasks.DateTextInjective | src/components/TaskView.tsx:225 | comparing two `date` strings compares the dates |
| Tasks.DateText | src/components/TaskView.tsx:238 | the date text has ten characters: four, two and two digits whose values are the year, month and day |
| Tasks.TimeRange | src/components/TaskView.tsx:249 | the time text starts with the start time and ends with the end time, with ` - ` between |
| Tasks.TimeRangeInjective | src/TaskView.ts:109-112 | with start times of one length, equal time texts mean equal start and end times |
| Tasks.TagTexts | src/TaskView.ts:121-127 | one text per tag, in order, each one character longer and starting with `#` |
| Tasks.TagTextsRoundTrip | src/components/TaskView.tsx:253-255 | dropping the `#` from each tag text gives back the tags, in order |
| Decimal.NatToStringRoundTrip | src/components/TaskView.tsx:204 | reading the digits of `toString()` gives the number back |
| Decimal.Padded | src/components/TaskView.tsx:208 | `padStart(k, '0')` of a number below `10^k` has exactly `k` digits, whose value is the number |
| Tasks.SortOldestFirst | src/TaskView.ts:86 | the sorted list is a permutation of the tasks, oldest date first |
| Tasks.SortOldestFirstCharacterized | src/TaskView.ts:86 | the sorted list is the only oldest-first rearrangement that keeps each date's tasks in their original order |
| Tasks.SortOldestFirstIdempotent | src/TaskView.ts:86 | sorting the already sorted shared array again (a later opening) changes nothing |
| ItemView.ItemOf | src/TaskView.ts:89-127 | an item shows its task: its date text reads back as the task's date, its status text is the status, its status class names the status, its time text is `${startTime} - ${endTime}`, its tag texts are the task's `#tag` texts, and its content is the task's |
| ItemView.Items | src/TaskView.ts:89-127 | one item per task in list order, each item's date reading back as its task's date, with a line on every item but the last |
| ItemView.OpenItems | src/TaskView.ts:86-128 | one item per task; each item's date text reads as a date, these dates never go back in time, and every item but the last has a line |
| ItemView.OpenItemsShowTasks | src/TaskView.ts:89-98 | the items show a permutation of the tasks, and each item's date text reads back as its task's date |
| ItemView.OpenItemsDatesAscend | src/TaskView.ts:86-98 | the item dates, read back, never go back in time |
| ItemView.OpenItemsLines | src/TaskView.ts:93-95 | `n` tasks give exactly `n - 1` connecting lines, and the last item has none |
| ItemView.LinesBetweenItems | src/TaskView.ts:93-95 | with a line on every item but the last, the first `k` items carry `k` lines, or `k - 1` when they are all of them |
| ItemView.StatusClassRoundTrip | src/TaskView.ts:105-108 | the status span's class `task-status task-status-<status>` names its status, which can be read back from it |
| ItemView.ReopenShowsSameItems | src/TaskView.ts:86 | opening the view again, after the in-place sort, shows the same items |
| ItemView.AddToken | src/TaskView.ts:144 | `classList.add` keeps the list free of duplicates and leaves the token in it, adding nothing else |
| ItemView.RemoveToken | src/TaskView.ts:146 | `classList.remove` leaves every other token and removes the given one |
| ItemView.AdjustLayout | src/TaskView.ts:139-148 | after `adjustLayout` the container has the class `narrow` exactly when the width is below 600 |
| ItemView.AdjustLayoutKeepsOtherClasses | src/TaskView.ts:143-147 | the other classes stay, in their order |
| ItemView.AdjustLayoutIdempotent | src/TaskView.ts:139-148 | repeating the adjustment at one width changes nothing more |

## Behaviour kept as written

Two properties of the React view's week badge may not be what a reader
expects. The model keeps them as written and proves a witness for each:

- The badge pairs the ISO week number with the date's calendar year, not its
  week-numbering year. So 2024-12-30 reads `2024-W01` (`Timeline.LateDecemberBadge`).
- The badge is shown when the week number differs from the previous task's.
  The year is not compared. A task in week 25 of 2023 that follows one in
  week 25 of 2024 opens a new year header but gets no badge
  (`Timeline.BadgeComparesWeekNumberOnly`, `Timeline.JuneWeeks`).

There is no week header of its own: the badge sits inside the date header,
so it can appear only on a row whose date differs from the previous one.

## Left out

- The scroll handler and its `currentDate` state (src/components/TaskView.tsx:136-167): they depend on element positions and window height.
- React state and effects: `Timeline.Mounted` is the list after the mount effect has sorted it, and `Timeline.Render` renders any list.
- `ResizeObserver` wiring, `onOpen`/`onClose`, the React root, DOM node creation and `loadStyles`: host and UI plumbing with no behaviour to prove.
- Plugin registration, settings tab, the pages entry and the webpack configuration: host-framework glue and build tooling.
- The sample task arrays: test data.
- Month names: `toLocaleString(..., { month: 'long' })` depends on the locale. The month header's key is the pair (year, month), which compares the same as long as the locale's twelve month names are distinct.
- Time zones: `new Date('YYYY-MM-DD')` parses as UTC midnight and is read back through local-time getters. The model takes the local calendar date to equal the string's date.
- `Date.parse` itself: `Tasks.ParseDate` reads exactly the `YYYY-MM-DD` texts of valid dates with years 0..9999. Other strings that ECMAScript would accept, or read as an invalid date, are not modelled.
- The ECMAScript time-value range of ±8.64e15 ms: dates are unbounded integers in the model.
- The constant parts of the markup: the React card's own `timeline-line` div, the `task.id` keys, headings and container classes.
- Timeline.WeekBadge: uses the corrected `IsoWeek.WeekNumber`, not `IsoWeek.WeekNumberAsWritten`. So for task years 0..100 the modelled badge differs from the one the code draws: 0004-01-01 gets `4-W01` where the code writes `4-W53`. The code's `100-W-99085` for 0100-01-01 has no two-digit week at all. The as-written week numbers are modelled and proved separately (see "## Findings").
- Timeline.ShowWeek: compares the corrected week numbers for the same reason. For task years 0..100 the code compares the as-written ones, and a badge may appear or vanish there accordingly.
- Tasks.TimeRangeInjective: requires start times of equal length, as in the `HH:MM` form. Without this, ` - ` inside a time makes the split ambiguous.
- ItemView.AdjustLayout: requires a class list without duplicates. A DOM token list is an ordered set, so every list the code sees already meets this.

## Findings

| source | as written | input that shows it | evidently intended | confidence | as-written member | corrected member |
|---|---|---|---|---|---|---|
| src/components/TaskView.tsx:170-173 | `Date.UTC(year, ...)` reads years 0..99 as 1900..1999, both for the date itself and for the first of January of the Thursday's year | 0004-01-01 gives 53 instead of 1; 0100-01-01 gives -99085, outside 1..53 | the ISO week of the date as given, for every year | high for the arithmetic, low practical impact; not executed | IsoWeek.WeekNumberAsWritten (IsoWeek.AsWrittenMisnumbersYear4, IsoWeek.AsWrittenLeavesRangeInYear100) | IsoWeek.WeekNumber (IsoWeek.WeekNumberCountsFromJanuary4; agreement outside two-digit years stated by IsoWeek.WeekNumberAsWritten) |

The timeline's badges use `IsoWeek.WeekNumber`. For task dates after the
year 100 the two definitions agree, as the contract of `IsoWeek.WeekNumberAsWritten` states.

=== FILE: calendar.dfy ===
/** Proleptic-Gregorian calendar arithmetic: the part of ECMAScript's `Date`
    that the timeline uses once a date string has been parsed. A time value
    at UTC midnight is a whole number of days since 1970-01-01 times
    86 400 000 ms; `DayNumber` is that number of days. */
module Calendar {

  /** Milliseconds in one day, the unit of ECMAScript time values. */
  const MsPerDay: int := 86400000

  /** A calendar date; `month` is 1-based (ECMAScript's `getMonth()` is
      0-based, so `getMonth() + 1 == month`). */
  datatype Date = Date(year: int, month: int, day: int) {
    predicate Valid() {
      1 <= month <= 12 && 1 <= day <= DaysInMonth(year, month)
    }
  }

  /** A date that exists in the proleptic Gregorian calendar. */
  type CivilDate = d: Date | d.Valid() witness Date(1970, 1, 1)

  predicate IsLeapYear(y: int) {
    y % 4 == 0 && (y % 100 != 0 || y % 400 == 0)
  }

  function DaysInYear(y: int): int {
    if IsLeapYear(y) then 366 else 365
  }

  function DaysInMonth(y: int, m: int): (n: int)
    requires 1 <= m <= 12
    ensures 28 <= n <= 31
    ensures n == 29 <==> m == 2 && IsLeapYear(y)
  {
    if m == 2 then (if IsLeapYear(y) then 29 else 28)
    else if m == 4 || m == 6 || m == 9 || m == 11 then 30
    else 31
  }

  /** Days of year `y` before the first of month `m`. */
  function DaysBeforeMonth(y: int, m: int): (n: int)
    requires 1 <= m <= 12
    ensures m == 1 ==> n == 0
    ensures m == 12 ==> n + DaysInMonth(y, 12) == DaysInYear(y)
  {
    var common := [0, 31, 59, 90, 120, 151, 181, 212, 243, 273, 304, 334][m - 1];
    common + (if m > 2 && IsLeapYear(y) then 1 else 0)
  }

  /** Leap years in [1, y) for y >= 1, and minus the leap years in [y, 0]
      for y <= 0; `/` is floor division here because the divisors are
      positive. */
  function LeapYearsBefore(y: int): int {
    (y - 1) / 4 - (y - 1) / 100 + (y - 1) / 400
  }

  lemma LeapYearsBeforeStep(y: int)
    ensures LeapYearsBefore(y + 1) == LeapYearsBefore(y) + (if IsLeapYear(y) then 1 else 0)
  {
    FloorStep(y - 1);
    CenturyDivisors(y);
  }

  /** Floor division by each divisor of the leap-year rule steps up by one
      exactly at multiples of the divisor. */
  lemma FloorStep(x: int)
    ensures (x + 1) / 4 == x / 4 + (if (x + 1) % 4 == 0 then 1 else 0)
    ensures (x + 1) / 100 == x / 100 + (if (x + 1) % 100 == 0 then 1 else 0)
    ensures (x + 1) / 400 == x / 400 + (if (x + 1) % 400 == 0 then 1 else 0)
  {
  }

  lemma CenturyDivisors(y: int)
    ensures y % 400 == 0 ==> y % 100 == 0
    ensures y % 100 == 0 ==> y % 4 == 0
  {
    var k := y / 400;
    var c := y / 100;
    assert y == 400 * k + y % 400;
    assert y == 100 * c + y % 100;
    assert y % 100 == 0 ==> y == 4 * (25 * c);
  }

  /** Days from 1970-01-01 to the first of January of `y`. */
  function DaysBeforeYear(y: int): int {
    365 * (y - 1970) + LeapYearsBefore(y) - LeapYearsBefore(1970)
  }

  lemma DaysBeforeYearStep(y: int)
    ensures DaysBeforeYear(y + 1) == DaysBeforeYear(y) + DaysInYear(y)
  {
    LeapYearsBeforeStep(y);
  }

  lemma {:induction false} DaysBeforeYearMonotone(a: int, b: int)
    requires a < b
    ensures DaysBeforeYear(a + 1) <= DaysBeforeYear(b)
    decreases b - a
  {
    if a + 1 < b {
      DaysBeforeYearMonotone(a, b - 1);
      DaysBeforeYearStep(b - 1);
    }
  }

  /** Days since 1970-01-01 (negative before it). */
  function DayNumber(d: Date): int
    requires 1 <= d.month <= 12
  {
    DaysBeforeYear(d.year) + DaysBeforeMonth(d.year, d.month) + d.day - 1
  }

  /** The ECMAScript time value of the date at UTC midnight (`getTime()`). */
  function Timestamp(d: Date): int
    requires 1 <= d.month <= 12
  {
    DayNumber(d) * MsPerDay
  }

  /** `getUTCDay()`: 0 is Sunday, 1 Monday, ... 6 Saturday. 1970-01-01 was a
      Thursday. Dafny's `%` never returns a negative value, as is needed for
      dates before 1970. */
  function Weekday(d: Date): (w: int)
    requires 1 <= d.month <= 12
    ensures 0 <= w < 7
  {
    (DayNumber(d) + 4) % 7
  }

  /** A valid date lies inside its own year's span of day numbers. */
  lemma DayNumberWithinYear(d: CivilDate)
    ensures DaysBeforeYear(d.year) <= DayNumber(d) < DaysBeforeYear(d.year) + DaysInYear(d.year)
  {
  }

  /** Within one year, an earlier month ends before a later one begins. */
  lemma DaysBeforeMonthMonotone(y: int, m1: int, m2: int)
    requires 1 <= m1 < m2 <= 12
    ensures DaysBeforeMonth(y, m1) + DaysInMonth(y, m1) <= DaysBeforeMonth(y, m2)
  {
  }

  /** Day numbers order dates exactly as (year, month, day) does; in
      particular two valid dates with the same day number are equal. */
  lemma DayNumberOrder(a: CivilDate, b: CivilDate)
    ensures DayNumber(a) < DayNumber(b) <==> Before(a, b)
    ensures DayNumber(a) == DayNumber(b) <==> a == b
  {
    if a.year < b.year {
      DayNumberOrderAcrossYears(a, b);
    } else if b.year < a.year {
      DayNumberOrderAcrossYears(b, a);
    } else if a.month < b.month {
      DaysBeforeMonthMonotone(a.year, a.month, b.month);
    } else if b.month < a.month {
      DaysBeforeMonthMonotone(a.year, b.month, a.month);
    }
  }

  lemma DayNumberOrderAcrossYears(a: CivilDate, b: CivilDate)
    requires a.year < b.year
    ensures DayNumber(a) < DayNumber(b)
  {
    DaysBeforeYearMonotone(a.year, b.year);
    DaysBeforeYearStep(a.year);
    DayNumberWithinYear(a);
    DayNumberWithinYear(b);
  }

  /** Lexicographic order on (year, month, day). */
  predicate Before(a: Date, b: Date) {
    a.year < b.year
    || (a.year == b.year && a.month < b.month)
    || (a.year == b.year && a.month == b.month && a.day < b.day)
  }

  lemma DayNumberInjective(a: CivilDate, b: CivilDate)
    requires DayNumber(a) == DayNumber(b)
    ensures a == b
  {
    DayNumberOrder(a, b);
  }

  function NextDay(d: CivilDate): (r: CivilDate)
    ensures DayNumber(r) == DayNumber(d) + 1
  {
    if d.day < DaysInMonth(d.year, d.month) then Date(d.year, d.month, d.day + 1)
    else if d.month < 12 then Date(d.year, d.month + 1, 1)
    else
      DaysBeforeYearStep(d.year);
      Date(d.year + 1, 1, 1)
  }

  function PrevDay(d: CivilDate): (r: CivilDate)
    ensures DayNumber(r) == DayNumber(d) - 1
  {
    if d.day > 1 then Date(d.year, d.month, d.day - 1)
    else if d.month > 1 then Date(d.year, d.month - 1, DaysInMonth(d.year, d.month - 1))
    else
      DaysBeforeYearStep(d.year - 1);
      Date(d.year - 1, 12, 31)
  }

  /** The date `k` days after `d` (before it when `k < 0`). This is what
      ECMAScript's `setUTCDate(getUTCDate() + k)` yields: an out-of-range
      day of the month rolls over into neighbouring months and years. */
  function AddDays(d: CivilDate, k: int): (r: CivilDate)
    ensures DayNumber(r) == DayNumber(d) + k
    decreases if k < 0 then -k else k
  {
    if k == 0 then d
    else if k > 0 then AddDays(NextDay(d), k - 1)
    else AddDays(PrevDay(d), k + 1)
  }

  /** `setUTCDate(n)` on a time value of date `d`: day `n` of `d`'s month,
      counted from the first of that month, whatever its sign or size. */
  lemma SetDateIsAddDays(d: CivilDate, n: int)
    ensures DayNumber(AddDays(d, n - d.day)) == DaysBeforeYear(d.year) + DaysBeforeMonth(d.year, d.month) + n - 1
  {
  }

  /** The weekday advances by one for each day, modulo 7. */
  lemma WeekdayShift(a: CivilDate, b: CivilDate)
    ensures Weekday(b) == (Weekday(a) + (DayNumber(b) - DayNumber(a))) % 7
  {
    ShiftMod7(DayNumber(a) + 4, DayNumber(b) - DayNumber(a));
  }

  lemma ShiftMod7(x: int, k: int)
    ensures (x + k) % 7 == (x % 7 + k) % 7
  {
    var q := x / 7;
    assert x == 7 * q + x % 7;
    assert x + k == 7 * q + (x % 7 + k);
  }

  /** Dates a whole number of weeks apart fall on the same weekday. */
  lemma WeekdayPeriodic(a: CivilDate, b: CivilDate)
    requires (DayNumber(b) - DayNumber(a)) % 7 == 0
    ensures Weekday(a) == Weekday(b)
  {
    AddWholeWeeks(DayNumber(a) + 4, DayNumber(b) - DayNumber(a));
  }

  lemma AddWholeWeeks(x: int, k: int)
    requires k % 7 == 0
    ensures (x + k) % 7 == x % 7
  {
    var q := k / 7;
    assert x + k == x + 7 * q;
  }
}

=== FILE: isoweek.dfy ===
/** The week number of section 2.2.10 and section 4.1.4 of ISO 8601:2004
    as `getWeekNumber` computes it: weeks run Monday to Sunday, and a week
    belongs to the year that holds its Thursday, so week 1 is the week
    holding 4 January. */
module IsoWeek {
  import opened Calendar

  /** `getUTCDay() || 7`: Monday 1 ... Saturday 6, and Sunday (0, which is
      falsy in ECMAScript) becomes 7. */
  function IsoWeekday(d: Date): (r: int)
    requires 1 <= d.month <= 12
    ensures 1 <= r <= 7
    ensures r % 7 == Weekday(d)
  {
    var w := Weekday(d);
    if w == 0 then 7 else w
  }

  /** Day number of the Monday that opens the Monday-to-Sunday week of `d`. */
  function WeekStart(d: Date): int
    requires 1 <= d.month <= 12
  {
    DayNumber(d) - IsoWeekday(d) + 1
  }

  /** Two dates lie in the same Monday-to-Sunday week. */
  predicate SameWeek(a: Date, b: Date)
    requires 1 <= a.month <= 12 && 1 <= b.month <= 12
  {
    WeekStart(a) == WeekStart(b)
  }

  /** The anchor `d + 4 - dayNum`: the Thursday of the week of `d`. */
  function ThursdayOf(d: CivilDate): (t: CivilDate)
    ensures IsoWeekday(t) == 4
    ensures SameWeek(t, d)
    ensures -3 <= DayNumber(t) - DayNumber(d) <= 3
  {
    var k := 4 - IsoWeekday(d);
    var t := AddDays(d, k);
    WeekdayShift(d, t);
    ThursdayShift(Weekday(d));
    assert Weekday(t) == 4;
    t
  }

  lemma ThursdayShift(w: int)
    requires 0 <= w < 7
    ensures (w + 4 - (if w == 0 then 7 else w)) % 7 == 4
  {
  }

  /** The ISO week-numbering year: the calendar year of the week's Thursday. */
  function WeekYear(d: CivilDate): int {
    ThursdayOf(d).year
  }

  /** 1-based position of `d` in its year (1 January is day 1). */
  function OrdinalDay(d: CivilDate): (n: int)
    ensures 1 <= n <= DaysInYear(d.year)
    ensures n == DayNumber(d) - DayNumber(Date(d.year, 1, 1)) + 1
  {
    DaysBeforeMonth(d.year, d.month) + d.day
  }

  /** `Math.ceil(a / b)` for a positive divisor, on integers. */
  function CeilDiv(a: int, b: int): (q: int)
    requires b > 0
    ensures b * (q - 1) < a <= b * q
  {
    -((-a) / b)
  }

  /** The last line of `getWeekNumber`: `Math.ceil((days + 1) / 7)`, where
      `days` is the time between two UTC midnights divided by the
      milliseconds in a day. */
  function WeekOfYearStart(t: CivilDate, yearStart: CivilDate): int {
    CeilDiv((Timestamp(t) - Timestamp(yearStart)) / MsPerDay + 1, 7)
  }

  /** `getWeekNumber` with the date taken as it is (no two-digit-year
      reading by `Date.UTC`; see `WeekNumberAsWritten`). */
  function WeekNumber(d: CivilDate): (w: int)
    ensures 1 <= w <= 53
  {
    var t := ThursdayOf(d);
    WeekNumberOfThursday(d);
    WeekOfYearStart(t, Date(t.year, 1, 1))
  }

  /** The week number is the ordinal week of the Thursday in its own year:
      `ceil(ordinal / 7)`. */
  lemma WeekNumberOfThursday(d: CivilDate)
    ensures var t := ThursdayOf(d);
      var w := WeekOfYearStart(t, Date(t.year, 1, 1));
      7 * (w - 1) < OrdinalDay(t) <= 7 * w
  {
    var t := ThursdayOf(d);
    var yearStart := Date(t.year, 1, 1);
    assert (Timestamp(t) - Timestamp(yearStart)) / MsPerDay == OrdinalDay(t) - 1;
  }

  /** A date whose day number falls inside year `y` belongs to year `y`. */
  lemma YearOfDayNumber(x: CivilDate, y: int)
    requires DaysBeforeYear(y) <= DayNumber(x) < DaysBeforeYear(y + 1)
    ensures x.year == y
  {
    DayNumberWithinYear(x);
    DaysBeforeYearStep(x.year);
    if x.year < y {
      DaysBeforeYearMonotone(x.year, y);
    } else if y < x.year {
      DaysBeforeYearMonotone(y, x.year);
    }
  }

  /** 4 January is always in week 1 of its own year. */
  lemma January4InWeek1(y: int)
    ensures WeekYear(Date(y, 1, 4)) == y
    ensures WeekNumber(Date(y, 1, 4)) == 1
  {
    var t := ThursdayOf(Date(y, 1, 4));
    DaysBeforeYearStep(y);
    YearOfDayNumber(t, y);
    WeekNumberOfThursday(Date(y, 1, 4));
  }

  /** 28 December is always in the last week of its own year. */
  lemma December28InOwnWeekYear(y: int)
    ensures WeekYear(Date(y, 12, 28)) == y
  {
    var t := ThursdayOf(Date(y, 12, 28));
    DaysBeforeYearStep(y);
    YearOfDayNumber(t, y);
  }

  /** Two Thursdays are a whole number of weeks apart. */
  lemma ThursdaysWholeWeeksApart(a: CivilDate, b: CivilDate)
    requires IsoWeekday(a) == 4 && IsoWeekday(b) == 4
    ensures (DayNumber(b) - DayNumber(a)) % 7 == 0
  {
    EqualResidues(DayNumber(a) + 4, DayNumber(b) + 4);
  }

  lemma EqualResidues(x: int, z: int)
    requires x % 7 == z % 7
    ensures (z - x) % 7 == 0
  {
    assert x == 7 * (x / 7) + x % 7;
    assert z == 7 * (z / 7) + z % 7;
    assert z - x == 7 * (z / 7 - x / 7);
  }

  /** Reference definition: the week number counts whole weeks from the
      week holding 4 January of the week-numbering year, starting at 1. */
  lemma WeekNumberCountsFromJanuary4(d: CivilDate)
    ensures var y := WeekYear(d);
      (WeekStart(d) - WeekStart(Date(y, 1, 4))) % 7 == 0
      && WeekNumber(d) == (WeekStart(d) - WeekStart(Date(y, 1, 4))) / 7 + 1
  {
    var y := WeekYear(d);
    var t := ThursdayOf(d);
    var j := Date(y, 1, 4);
    var t4 := ThursdayOf(j);
    January4InWeek1(y);
    ThursdaysWholeWeeksApart(t4, t);
    var gap := DayNumber(t) - DayNumber(t4);
    assert gap == WeekStart(d) - WeekStart(j);
    var k := gap / 7;
    assert gap == 7 * k;
    WeekNumberOfThursday(d);
    WeekNumberOfThursday(j);
    assert OrdinalDay(t) == OrdinalDay(t4) + 7 * k;
    assert 1 <= OrdinalDay(t4) <= 7;
  }

  /** The pair (week-numbering year, week number) identifies exactly one
      Monday-to-Sunday week. */
  lemma SameWeekIffSameNumber(a: CivilDate, b: CivilDate)
    ensures SameWeek(a, b) <==> WeekYear(a) == WeekYear(b) && WeekNumber(a) == WeekNumber(b)
  {
    if SameWeek(a, b) {
      SameWeekSameThursday(a, b);
    }
    if WeekYear(a) == WeekYear(b) && WeekNumber(a) == WeekNumber(b) {
      SameNumberSameWeek(a, b);
    }
  }

  lemma SameWeekSameThursday(a: CivilDate, b: CivilDate)
    requires SameWeek(a, b)
    ensures ThursdayOf(a) == ThursdayOf(b)
  {
    DayNumberInjective(ThursdayOf(a), ThursdayOf(b));
  }

  lemma SameNumberSameWeek(a: CivilDate, b: CivilDate)
    requires WeekYear(a) == WeekYear(b) && WeekNumber(a) == WeekNumber(b)
    ensures SameWeek(a, b)
  {
    var j := Date(WeekYear(a), 1, 4);
    WeekNumberCountsFromJanuary4(a);
    WeekNumberCountsFromJanuary4(b);
    EqualWeekCounts(WeekStart(a), WeekStart(b), WeekStart(j), WeekNumber(a), WeekNumber(b));
  }

  /** Two days a whole number of weeks after a third, at the same count of
      weeks from it, are the same day. */
  lemma EqualWeekCounts(sa: int, sb: int, sj: int, wa: int, wb: int)
    requires (sa - sj) % 7 == 0 && (sb - sj) % 7 == 0
    requires wa == (sa - sj) / 7 + 1 && wb == (sb - sj) / 7 + 1 && wa == wb
    ensures sa == sb
  {
  }

  /** The week after a given one has the next number in the same
      week-numbering year, or is week 1 of the next one. */
  lemma NextWeekNumber(a: CivilDate, b: CivilDate)
    requires WeekStart(b) == WeekStart(a) + 7
    ensures WeekYear(b) == WeekYear(a) ==> WeekNumber(b) == WeekNumber(a) + 1
    ensures WeekYear(b) != WeekYear(a) ==> WeekYear(b) == WeekYear(a) + 1 && WeekNumber(b) == 1
  {
    if WeekYear(b) == WeekYear(a) {
      NextWeekSameYear(a, b);
    } else {
      NextWeekNewYear(a, b);
    }
  }

  lemma NextWeekSameYear(a: CivilDate, b: CivilDate)
    requires WeekStart(b) == WeekStart(a) + 7
    requires WeekYear(b) == WeekYear(a)
    ensures WeekNumber(b) == WeekNumber(a) + 1
  {
    var ta := ThursdayOf(a);
    var tb := ThursdayOf(b);
    assert OrdinalDay(tb) == OrdinalDay(ta) + 7;
    WeekNumberOfThursday(a);
    WeekNumberOfThursday(b);
  }

  lemma NextWeekNewYear(a: CivilDate, b: CivilDate)
    requires WeekStart(b) == WeekStart(a) + 7
    requires WeekYear(b) != WeekYear(a)
    ensures WeekYear(b) == WeekYear(a) + 1 && WeekNumber(b) == 1
  {
    var ta := ThursdayOf(a);
    var tb := ThursdayOf(b);
    assert DayNumber(tb) == DayNumber(ta) + 7;
    WeekLaterInNextYear(ta, tb);
    WeekNumberOfThursday(b);
  }

  /** A date a week after another but in a different year is in the
      following year, among its first seven days. */
  lemma WeekLaterInNextYear(ta: CivilDate, tb: CivilDate)
    requires DayNumber(tb) == DayNumber(ta) + 7 && tb.year != ta.year
    ensures tb.year == ta.year + 1 && OrdinalDay(tb) <= 7
  {
    var y := ta.year;
    DayNumberWithinYear(ta);
    DaysBeforeYearStep(y);
    DaysBeforeYearStep(y + 1);
    if tb.year < y {
      DayNumberOrderAcrossYears(tb, ta);
    }
    YearOfDayNumber(tb, y + 1);
  }

  /** ECMAScript's `Date.UTC(year, ...)` reads a year from 0 to 99 as
      1900 + year. */
  function UtcYear(y: int): int {
    if 0 <= y <= 99 then 1900 + y else y
  }

  /** `new Date(Date.UTC(y, m - 1, d))`: the first of the month in the year
      `Date.UTC` reads, then `d - 1` days on (so 29 February of year 0
      becomes 1 March 1900). */
  function UtcDate(y: int, m: int, d: int): (r: CivilDate)
    requires 1 <= m <= 12 && 1 <= d
    ensures DayNumber(r) == DayNumber(Date(UtcYear(y), m, 1)) + d - 1
  {
    AddDays(Date(UtcYear(y), m, 1), d - 1)
  }

  /** `getWeekNumber` exactly as written: both `Date.UTC` calls (for the date
      itself and for 1 January of the Thursday's year) apply the two-digit
      year reading. */
  function WeekNumberAsWritten(d: CivilDate): (w: int)
    ensures d.year < -1 || d.year > 100 ==> w == WeekNumber(d)
  {
    var u := UtcDate(d.year, d.month, d.day);
    var t := ThursdayOf(u);
    var w := WeekOfYearStart(t, UtcDate(t.year, 1, 1));
    if d.year < -1 || d.year > 100 then
      AgreeOutsideTwoDigitYears(d);
      w
    else w
  }

  /** A date within three days of another is at most one calendar year away. */
  lemma NearbyYears(a: CivilDate, b: CivilDate)
    requires -3 <= DayNumber(b) - DayNumber(a) <= 3
    ensures a.year - 1 <= b.year <= a.year + 1
  {
    if b.year > a.year + 1 {
      DayNumberWithinYear(a);
      DaysBeforeYearStep(a.year);
      DaysBeforeYearStep(a.year + 1);
      DaysBeforeYearMonotone(a.year + 1, b.year);
      DayNumberWithinYear(b);
    } else if b.year < a.year - 1 {
      DayNumberWithinYear(b);
      DaysBeforeYearStep(b.year);
      DaysBeforeYearStep(b.year + 1);
      DaysBeforeYearMonotone(b.year + 1, a.year);
      DayNumberWithinYear(a);
    }
  }

  /** Away from the years 0 to 99 `Date.UTC` reads the year as given, for
      the date and for its Thursday's year start alike. */
  lemma AgreeOutsideTwoDigitYears(d: CivilDate)
    requires d.year < -1 || d.year > 100
    ensures var u := UtcDate(d.year, d.month, d.day);
      var t := ThursdayOf(u);
      u == d && UtcDate(t.year, 1, 1) == Date(t.year, 1, 1)
  {
    var u := UtcDate(d.year, d.month, d.day);
    DayNumberInjective(u, d);
    var t := ThursdayOf(d);
    NearbyYears(d, t);
    var yearStart := UtcDate(t.year, 1, 1);
    DayNumberInjective(yearStart, Date(t.year, 1, 1));
  }

  /** 0004-01-01 is the Thursday of week 1 of year 4, but the code numbers
      1904-01-01 instead, a Friday in week 53 of 1903. */
  lemma AsWrittenMisnumbersYear4()
    ensures WeekNumber(Date(4, 1, 1)) == 1
    ensures WeekNumberAsWritten(Date(4, 1, 1)) == 53
  {
    Year4Week1();
    AsWrittenYear4();
  }

  lemma Year4Week1()
    ensures WeekNumber(Date(4, 1, 1)) == 1
  {
    var d := Date(4, 1, 1);
    assert Weekday(d) == 4;
    var t := ThursdayOf(d);
    DayNumberInjective(t, d);
    WeekNumberOfThursday(d);
  }

  lemma AsWrittenYear4()
    ensures WeekNumberAsWritten(Date(4, 1, 1)) == 53
  {
    var u := UtcDate(4, 1, 1);
    assert u == Date(1904, 1, 1);
    assert Weekday(u) == 5;
    var t := ThursdayOf(u);
    DayNumberInjective(t, Date(1903, 12, 31));
    var s := UtcDate(1903, 1, 1);
    assert s == Date(1903, 1, 1);
    assert DayNumber(t) - DayNumber(s) == 364;
  }

  /** 0100-01-01 is a Friday; its Thursday is 0099-12-31, whose year start
      the code reads as 1999-01-01, giving a week number far below 1. */
  lemma AsWrittenLeavesRangeInYear100()
    ensures WeekNumberAsWritten(Date(100, 1, 1)) == -99085
  {
    var u := UtcDate(100, 1, 1);
    assert u == Date(100, 1, 1);
    assert Weekday(u) == 5;
    var t := ThursdayOf(u);
    DayNumberInjective(t, Date(99, 12, 31));
    var s := UtcDate(99, 1, 1);
    assert s == Date(1999, 1, 1);
    assert DayNumber(t) - DayNumber(s) == -693596;
  }
}

=== FILE: itemview.dfy ===
/** The Obsidian view (`TaskView` in src/TaskView.ts): on opening it lists
    the tasks oldest first, one timeline item per task, and when resized it
    toggles the `narrow` class of its container. */
module ItemView {
  import opened Wrappers
  import opened Calendar
  import opened Tasks
  import Sorting

  /** One `timeline-item`: whether it has a `timeline-line`, the
      `timeline-date` text, the status span's class and text, the time
      text, the content and the tag texts. */
  datatype Item = Item(
    line: bool,
    date: string,
    statusClass: string,
    statusText: string,
    timeText: string,
    content: string,
    tags: seq<string>)

  const StatusClassPrefix: string := "task-status task-status-"

  /** The status span's class, `task-status task-status-${task.status}`. */
  function StatusClass(status: string): string {
    StatusClassPrefix + status
  }

  /** Reads the status back from a status span's class. */
  function StatusOfClass(c: string): (r: Option<string>)
    ensures r.Some? ==> |c| >= |StatusClassPrefix| && r.value == c[|StatusClassPrefix|..]
  {
    if |c| >= |StatusClassPrefix| && c[..|StatusClassPrefix|] == StatusClassPrefix then
      Some(c[|StatusClassPrefix|..])
    else None
  }

  /** The class names the status, and only that status. */
  lemma StatusClassRoundTrip(status: string)
    ensures StatusOfClass(StatusClass(status)) == Some(status)
  {
    var c := StatusClass(status);
    assert c[..|StatusClassPrefix|] == StatusClassPrefix;
    assert c[|StatusClassPrefix|..] == status;
  }

  /** The item `forEach` builds for a task; `line` is `index <
      sortedTasks.length - 1`. */
  function ItemOf(t: Task, line: bool): (item: Item)
    ensures item.line == line && item.content == t.content
    ensures ParseDate(item.date) == Some(t.date)
    ensures item.statusText == t.status && StatusOfClass(item.statusClass) == Some(t.status)
    ensures item.timeText == TimeRange(t) && item.tags == TagTexts(t.tags)
  {
    ParseDateText(t.date);
    StatusClassRoundTrip(t.status);
    Item(line, DateText(t.date), StatusClass(t.status), t.status, TimeRange(t), t.content, TagTexts(t.tags))
  }

  /** The items of a list already in display order. */
  function Items(sorted: seq<Task>): (items: seq<Item>)
    ensures |items| == |sorted|
    ensures forall i :: 0 <= i < |items| ==> items[i] == ItemOf(sorted[i], i < |sorted| - 1)
    ensures forall i :: 0 <= i < |items| ==> (items[i].line <==> i < |items| - 1)
    ensures forall i :: 0 <= i < |items| ==> ParseDate(items[i].date) == Some(sorted[i].date)
  {
    seq(|sorted|, i requires 0 <= i < |sorted| => ItemOf(sorted[i], i < |sorted| - 1))
  }

  /** `onOpen`: the tasks sorted oldest first, then one item each. */
  function OpenItems(tasks: seq<Task>): (items: seq<Item>)
    ensures |items| == |tasks|
    ensures forall i :: 0 <= i < |items| ==> (items[i].line <==> i < |items| - 1)
    ensures forall i :: 0 <= i < |items| ==> ParseDate(items[i].date).Some?
    ensures forall i, j :: 0 <= i < j < |items| ==>
      DayNumber(ParseDate(items[i].date).value) <= DayNumber(ParseDate(items[j].date).value)
    ensures forall i :: 0 <= i < |items| ==> items[i] == ItemOf(SortOldestFirst(tasks)[i], i < |tasks| - 1)
  {
    Items(SortOldestFirst(tasks))
  }

  /** The number of items among the first `n` that have a line. */
  function LineCount(items: seq<Item>, n: nat): nat
    requires n <= |items|
  {
    if n == 0 then 0 else LineCount(items, n - 1) + (if items[n - 1].line then 1 else 0)
  }

  /** Every item but the last draws a connecting line. */
  lemma {:induction false} LinesBetweenItems(items: seq<Item>, n: nat)
    requires n <= |items|
    requires forall i :: 0 <= i < |items| ==> (items[i].line <==> i < |items| - 1)
    ensures LineCount(items, n) == if n == |items| && n > 0 then n - 1 else n
  {
    if n > 0 {
      LinesBetweenItems(items, n - 1);
    }
  }

  /** A list of `n` tasks opens with `n - 1` lines, the last item having
      none. */
  lemma OpenItemsLines(tasks: seq<Task>)
    requires |tasks| > 0
    ensures var items := OpenItems(tasks);
      LineCount(items, |items|) == |tasks| - 1 && !items[|items| - 1].line
  {
    LinesBetweenItems(OpenItems(tasks), |tasks|);
  }

  /** The items show the tasks themselves, each once, in date order. */
  lemma OpenItemsShowTasks(tasks: seq<Task>)
    ensures var items := OpenItems(tasks);
      var sorted := SortOldestFirst(tasks);
      multiset(sorted) == multiset(tasks)
      && forall i :: 0 <= i < |items| ==> ParseDate(items[i].date) == Some(sorted[i].date)
  {
    var sorted := SortOldestFirst(tasks);
    forall i | 0 <= i < |sorted|
      ensures ParseDate(DateText(sorted[i].date)) == Some(sorted[i].date)
    {
      ParseDateText(sorted[i].date);
    }
  }

  /** The date texts of the items, read back, never go back in time. */
  lemma OpenItemsDatesAscend(tasks: seq<Task>, i: nat, j: nat)
    requires i < j < |tasks|
    ensures var items := OpenItems(tasks);
      ParseDate(items[i].date).Some? && ParseDate(items[j].date).Some?
      && DayNumber(ParseDate(items[i].date).value) <= DayNumber(ParseDate(items[j].date).value)
  {
    var sorted := SortOldestFirst(tasks);
    ParseDateText(sorted[i].date);
    ParseDateText(sorted[j].date);
  }

  /** `sampleTasks.sort` sorts the module's array in place, so a second
      opening sorts an already sorted list and shows the same items. */
  lemma ReopenShowsSameItems(tasks: seq<Task>)
    ensures OpenItems(SortOldestFirst(tasks)) == OpenItems(tasks)
  {
    SortOldestFirstIdempotent(tasks);
  }

  /** The class list of an element: a DOM token list, an ordered set. */
  predicate Distinct(s: seq<string>) {
    forall i, j :: 0 <= i < j < |s| ==> s[i] != s[j]
  }

  /** `classList.add(token)`: appended when absent. */
  function AddToken(s: seq<string>, token: string): (r: seq<string>)
    requires Distinct(s)
    ensures Distinct(r) && token in r
    ensures forall x :: x in r <==> x in s || x == token
  {
    if token in s then s else s + [token]
  }

  /** `classList.remove(token)`: every other token stays, in order. */
  function RemoveToken(s: seq<string>, token: string): (r: seq<string>)
    ensures token !in r
    ensures forall x :: x in r <==> x in s && x != token
  {
    if |s| == 0 then []
    else (if s[0] == token then [] else [s[0]]) + RemoveToken(s[1..], token)
  }

  lemma {:induction false} RemoveTokenDistinct(s: seq<string>, token: string)
    requires Distinct(s)
    ensures Distinct(RemoveToken(s, token))
    decreases |s|
  {
    if |s| > 0 {
      RemoveTokenDistinct(s[1..], token);
      var rest := RemoveToken(s[1..], token);
      assert s[0] !in s[1..];
      assert s[0] !in rest;
    }
  }

  /** The width below which the container is `narrow`. */
  const NarrowWidth: int := 600

  /** `adjustLayout` on the container's class list and `clientWidth`. */
  function AdjustLayout(classes: seq<string>, width: int): (r: seq<string>)
    requires Distinct(classes)
    ensures Distinct(r)
    ensures "narrow" in r <==> width < NarrowWidth
  {
    RemoveTokenDistinct(classes, "narrow");
    if width < NarrowWidth then AddToken(classes, "narrow") else RemoveToken(classes, "narrow")
  }

  /** Resizing touches the `narrow` class only: the other classes stay, in
      their order. */
  lemma AdjustLayoutKeepsOtherClasses(classes: seq<string>, width: int)
    requires Distinct(classes)
    ensures RemoveToken(AdjustLayout(classes, width), "narrow") == RemoveToken(classes, "narrow")
  {
    if width < NarrowWidth && "narrow" !in classes {
      RemoveTokenAppend(classes, "narrow");
    } else if width >= NarrowWidth {
      RemoveTokenTwice(classes, "narrow");
    }
  }

  lemma {:induction false} RemoveTokenAppend(s: seq<string>, token: string)
    ensures RemoveToken(s + [token], token) == RemoveToken(s, token)
    decreases |s|
  {
    if |s| == 0 {
      assert RemoveToken([token][1..], token) == [];
    } else {
      assert (s + [token])[1..] == s[1..] + [token];
      RemoveTokenAppend(s[1..], token);
    }
  }

  lemma {:induction false} RemoveTokenTwice(s: seq<string>, token: string)
    ensures RemoveToken(RemoveToken(s, token), token) == RemoveToken(s, token)
    decreases |s|
  {
    if |s| > 0 {
      RemoveTokenTwice(s[1..], token);
      var rest := RemoveToken(s[1..], token);
      if s[0] != token {
        assert ([s[0]] + rest)[1..] == rest;
      } else {
        assert [] + rest == rest;
      }
    }
  }

  /** Repeated resize notifications at one width change nothing more. */
  lemma AdjustLayoutIdempotent(classes: seq<string>, width: int)
    requires Distinct(classes)
    ensures AdjustLayout(AdjustLayout(classes, width), width) == AdjustLayout(classes, width)
  {
    if width >= NarrowWidth {
      RemoveTokenTwice(classes, "narrow");
    }
  }
}

=== FILE: sorting.dfy ===
/** `Array.prototype.sort` with a numeric comparator `key(a) - key(b)`.
    Since ECMAScript 2019 the sort is stable: elements the comparator calls
    equal keep their relative order. An insertion sort on sequences has
    exactly that result, and `StableSortIsUnique` shows no other result is
    possible. */
module Sorting {

  /** Non-decreasing by `key`. */
  predicate SortedBy<T>(s: seq<T>, key: T -> int) {
    forall i, j :: 0 <= i < j < |s| ==> key(s[i]) <= key(s[j])
  }

  /** The elements of `s` whose key is `k`, in their order in `s`. */
  function WithKey<T>(s: seq<T>, key: T -> int, k: int): seq<T> {
    if |s| == 0 then []
    else (if key(s[0]) == k then [s[0]] else []) + WithKey(s[1..], key, k)
  }

  /** For every key, `a` and `b` hold the same elements with that key in
      the same order. */
  ghost predicate SameOrderPerKey<T>(a: seq<T>, b: seq<T>, key: T -> int) {
    forall k :: WithKey(a, key, k) == WithKey(b, key, k)
  }

  /** Puts `x` in front of the first element whose key is at least its own. */
  function Insert<T>(x: T, s: seq<T>, key: T -> int): (r: seq<T>)
    requires SortedBy(s, key)
    ensures |r| == |s| + 1
    ensures SortedBy(r, key)
    ensures multiset(r) == multiset(s) + multiset{x}
    ensures |r| > 0 && (r[0] == x || (|s| > 0 && r[0] == s[0]))
  {
    if |s| == 0 || key(x) <= key(s[0]) then [x] + s
    else
      assert s == [s[0]] + s[1..];
      [s[0]] + Insert(x, s[1..], key)
  }

  function Sort<T>(s: seq<T>, key: T -> int): (r: seq<T>)
    ensures |r| == |s|
    ensures SortedBy(r, key)
    ensures multiset(r) == multiset(s)
  {
    if |s| == 0 then []
    else
      assert s == [s[0]] + s[1..];
      Insert(s[0], Sort(s[1..], key), key)
  }

  lemma {:induction false} InsertWithKey<T>(x: T, s: seq<T>, key: T -> int, k: int)
    requires SortedBy(s, key)
    ensures WithKey(Insert(x, s, key), key, k)
         == (if key(x) == k then [x] else []) + WithKey(s, key, k)
    decreases |s|, 1
  {
    if |s| == 0 || key(x) <= key(s[0]) {
      WithKeyCons(x, s, key, k);
    } else {
      InsertBehindHead(x, s, key, k);
    }
  }

  lemma {:induction false} InsertBehindHead<T>(x: T, s: seq<T>, key: T -> int, k: int)
    requires SortedBy(s, key) && |s| > 0 && key(s[0]) < key(x)
    ensures WithKey(Insert(x, s, key), key, k)
         == (if key(x) == k then [x] else []) + WithKey(s, key, k)
    decreases |s|, 0
  {
    var t := Insert(x, s[1..], key);
    var w := WithKey(s[1..], key, k);
    assert Insert(x, s, key) == [s[0]] + t;
    InsertWithKey(x, s[1..], key, k);
    WithKeyCons(s[0], t, key, k);
    WithKeyCons(s[0], s[1..], key, k);
    assert s == [s[0]] + s[1..];
    if key(x) == k {
      assert WithKey(t, key, k) == [x] + w;
      assert WithKey(s, key, k) == w;
    } else {
      assert WithKey(t, key, k) == w;
    }
  }

  lemma WithKeyCons<T>(h: T, t: seq<T>, key: T -> int, k: int)
    ensures WithKey([h] + t, key, k) == (if key(h) == k then [h] else []) + WithKey(t, key, k)
  {
    assert ([h] + t)[1..] == t;
  }

  /** Stability: for every key, the elements with that key appear in the
      result in the same order as in the input. */
  lemma {:induction false} SortIsStable<T>(s: seq<T>, key: T -> int, k: int)
    ensures WithKey(Sort(s, key), key, k) == WithKey(s, key, k)
    decreases |s|
  {
    if |s| > 0 {
      SortIsStable(s[1..], key, k);
      InsertWithKey(s[0], Sort(s[1..], key), key, k);
    }
  }

  /** Sorting an already sorted sequence changes nothing. */
  lemma {:induction false} SortOfSorted<T>(s: seq<T>, key: T -> int)
    requires SortedBy(s, key)
    ensures Sort(s, key) == s
    decreases |s|
  {
    if |s| > 0 {
      SortOfSorted(s[1..], key);
      assert s == [s[0]] + s[1..];
    }
  }

  lemma SortIdempotent<T>(s: seq<T>, key: T -> int)
    ensures Sort(Sort(s, key), key) == Sort(s, key)
  {
    SortOfSorted(Sort(s, key), key);
  }

  /** Every element with key `k` is in `WithKey(s, key, k)`, and it is empty
      when no element has that key. */
  lemma {:induction false} WithKeyMembers<T>(s: seq<T>, key: T -> int, k: int)
    ensures forall x :: x in WithKey(s, key, k) <==> x in s && key(x) == k
    decreases |s|
  {
    if |s| > 0 {
      WithKeyMembers(s[1..], key, k);
      assert s == [s[0]] + s[1..];
    }
  }

  /** Two sorted sequences that agree on the elements of every key, in
      order, are equal: a stable sort has exactly one possible result. */
  lemma {:induction false} StableSortIsUnique<T>(a: seq<T>, b: seq<T>, key: T -> int)
    requires SortedBy(a, key) && SortedBy(b, key)
    requires SameOrderPerKey(a, b, key)
    ensures a == b
    decreases |a|
  {
    if |a| > 0 || |b| > 0 {
      var c := if |a| > 0 then a else b;
      assert WithKey(c, key, key(c[0])) != [];
      assert |a| > 0 && |b| > 0;
      SameHeads(a, b, key);
      TailsAgree(a, b, key);
      StableSortIsUnique(a[1..], b[1..], key);
      assert a == [a[0]] + a[1..];
      assert b == [b[0]] + b[1..];
    }
  }

  lemma SameHeads<T>(a: seq<T>, b: seq<T>, key: T -> int)
    requires SortedBy(a, key) && SortedBy(b, key) && |a| > 0 && |b| > 0
    requires SameOrderPerKey(a, b, key)
    ensures a[0] == b[0]
  {
    var ka := key(a[0]);
    var kb := key(b[0]);
    WithKeyMembers(a, key, kb);
    WithKeyMembers(b, key, ka);
    assert b[0] in WithKey(b, key, kb);
    assert a[0] in WithKey(a, key, ka);
    var i :| 0 <= i < |a| && a[i] == b[0];
    assert ka <= kb;
    var j :| 0 <= j < |b| && b[j] == a[0];
    assert kb <= ka;
    assert WithKey(a, key, ka)[0] == a[0];
    assert WithKey(b, key, kb)[0] == b[0];
  }

  lemma TailsAgree<T>(a: seq<T>, b: seq<T>, key: T -> int)
    requires |a| > 0 && |b| > 0 && a[0] == b[0]
    requires SameOrderPerKey(a, b, key)
    ensures SameOrderPerKey(a[1..], b[1..], key)
  {
    forall k
      ensures WithKey(a[1..], key, k) == WithKey(b[1..], key, k)
    {
      var h := if key(a[0]) == k then [a[0]] else [];
      var ta := WithKey(a[1..], key, k);
      var tb := WithKey(b[1..], key, k);
      assert WithKey(a, key, k) == h + ta;
      assert WithKey(b, key, k) == h + tb;
      assert (h + ta)[|h|..] == ta;
      assert (h + tb)[|h|..] == tb;
    }
  }

  lemma SortIsStableForAllKeys<T>(s: seq<T>, key: T -> int)
    ensures SameOrderPerKey(Sort(s, key), s, key)
  {
    forall k
      ensures WithKey(Sort(s, key), key, k) == WithKey(s, key, k)
    {
      SortIsStable(s, key, k);
    }
  }

  /** The result of `Sort` is the only sorted, stable rearrangement. */
  lemma SortCharacterized<T>(s: seq<T>, r: seq<T>, key: T -> int)
    ensures SortedBy(r, key) && SameOrderPerKey(r, s, key) <==> r == Sort(s, key)
  {
    SortIsStableForAllKeys(s, key);
    if SortedBy(r, key) && SameOrderPerKey(r, s, key) {
      assert SameOrderPerKey(r, Sort(s, key), key);
      StableSortIsUnique(r, Sort(s, key), key);
    }

  }
}

=== FILE: tasks.dfy ===
/** The task record both views render, its 'YYYY-MM-DD' date text, and the
    two date orders the views sort by. */
module Tasks {
  import opened Wrappers
  import opened Calendar
  import opened Decimal
  import Sorting

  /** A date a 'YYYY-MM-DD' string can name: a real date with a four-digit
      year. The string is read as UTC midnight, and its local calendar date
      is taken to be the same date. */
  type TaskDate = d: CivilDate | 0 <= d.year <= 9999 witness Date(1970, 1, 1)

  /** `interface Task`; `date` holds the date its string names, and
      `DateText(date)` is the string itself. */
  datatype Task = Task(
    id: string,
    content: string,
    status: string,
    tags: seq<string>,
    date: TaskDate,
    startTime: string,
    endTime: string)

  /** The task's `date` string. */
  function DateText(d: TaskDate): (s: string)
    ensures |s| == 10 && s[4] == '-' && s[7] == '-'
    ensures AllDigits(s[..4]) && DigitsValue(s[..4]) == d.year
    ensures AllDigits(s[5..7]) && DigitsValue(s[5..7]) == d.month
    ensures AllDigits(s[8..]) && DigitsValue(s[8..]) == d.day
  {
    assert Pow10(2) == 100 && Pow10(4) == 10000;
    var yyyy := Padded(d.year, 4);
    var mm := Padded(d.month, 2);
    var dd := Padded(d.day, 2);
    var s := yyyy + "-" + mm + "-" + dd;
    assert s[..4] == yyyy;
    assert s[5..7] == mm;
    assert s[8..] == dd;
    s
  }

  /** Reads a 'YYYY-MM-DD' string naming a real date; anything else is
      `None`. */
  function ParseDate(s: string): (r: Option<TaskDate>)
    ensures r.Some? ==> |s| == 10 && s[4] == '-' && s[7] == '-'
    ensures r.Some? ==> DateText(r.value) == s
  {
    if |s| == 10 && s[4] == '-' && s[7] == '-'
       && AllDigits(s[..4]) && AllDigits(s[5..7]) && AllDigits(s[8..]) then
      var d := Date(DigitsValue(s[..4]), DigitsValue(s[5..7]), DigitsValue(s[8..]));
      if d.Valid() && d.year <= 9999 then
        DateTextOfFields(s, d);
        Some(d)
      else None
    else None
  }

  /** A 'YYYY-MM-DD' string whose fields spell a date's numbers is that
      date's text: each fixed-width field has only one spelling. */
  lemma DateTextOfFields(s: string, d: TaskDate)
    requires |s| == 10 && s[4] == '-' && s[7] == '-'
    requires AllDigits(s[..4]) && DigitsValue(s[..4]) == d.year
    requires AllDigits(s[5..7]) && DigitsValue(s[5..7]) == d.month
    requires AllDigits(s[8..]) && DigitsValue(s[8..]) == d.day
    ensures DateText(d) == s
  {
    var t := DateText(d);
    DigitsInjective(t[..4], s[..4]);
    DigitsInjective(t[5..7], s[5..7]);
    DigitsInjective(t[8..], s[8..]);
    SameFieldsSameText(t, s);
  }

  lemma SameFieldsSameText(t: string, s: string)
    requires |t| == 10 && |s| == 10 && t[4] == s[4] && t[7] == s[7]
    requires t[..4] == s[..4] && t[5..7] == s[5..7] && t[8..] == s[8..]
    ensures t == s
  {
    forall i | 0 <= i < 10
      ensures t[i] == s[i]
    {
      if i < 4 {
        assert t[i] == t[..4][i] && s[i] == s[..4][i];
      } else if 4 < i < 7 {
        assert t[i] == t[5..7][i - 5] && s[i] == s[5..7][i - 5];
      } else if 7 < i {
        assert t[i] == t[8..][i - 8] && s[i] == s[8..][i - 8];
      }
    }
  }

  /** Reading the text of a date gives the date back. */
  lemma ParseDateText(d: TaskDate)
    ensures ParseDate(DateText(d)) == Some(d)
  {
  }

  /** `ParseDate` and `DateText` are inverse: a string reads as a date
      exactly when it is that date's text. */
  lemma ParseDateInverse(s: string, d: TaskDate)
    ensures ParseDate(s) == Some(d) <==> s == DateText(d)
  {
    ParseDateText(d);
  }

  /** Distinct dates have distinct strings, so comparing the `date` strings
      of two tasks compares their dates. */
  lemma DateTextInjective(a: TaskDate, b: TaskDate)
    ensures DateText(a) == DateText(b) <==> a == b
  {
    ParseDateText(a);
    ParseDateText(b);
  }

  /** `new Date(task.date).getTime()`. */
  function Time(t: Task): int {
    Timestamp(t.date)
  }

  /** The ascending sort key, the comparator `a - b`. */
  function OldestFirstKey(t: Task): int {
    Time(t)
  }

  /** The descending sort key: the comparator `b - a` orders by the negated
      time. */
  function NewestFirstKey(t: Task): int {
    -Time(t)
  }

  predicate OldestFirst(s: seq<Task>) {
    forall i, j :: 0 <= i < j < |s| ==> DayNumber(s[i].date) <= DayNumber(s[j].date)
  }

  predicate NewestFirst(s: seq<Task>) {
    forall i, j :: 0 <= i < j < |s| ==> DayNumber(s[i].date) >= DayNumber(s[j].date)
  }

  /** `sampleTasks.sort((a, b) => time(a) - time(b))`. */
  function SortOldestFirst(s: seq<Task>): (r: seq<Task>)
    ensures |r| == |s| && multiset(r) == multiset(s)
    ensures OldestFirst(r)
  {
    var r := Sorting.Sort(s, OldestFirstKey);
    assert forall i, j :: 0 <= i < j < |r| ==> OldestFirstKey(r[i]) <= OldestFirstKey(r[j]);
    r
  }

  /** `[...tasks].sort((a, b) => time(b) - time(a))`. */
  function SortNewestFirst(s: seq<Task>): (r: seq<Task>)
    ensures |r| == |s| && multiset(r) == multiset(s)
    ensures NewestFirst(r)
  {
    var r := Sorting.Sort(s, NewestFirstKey);
    assert forall i, j :: 0 <= i < j < |r| ==> NewestFirstKey(r[i]) <= NewestFirstKey(r[j]);
    r
  }

  /** Tasks on the same date keep the order they had before sorting. */
  lemma SortsAreStable(s: seq<Task>, k: int)
    ensures Sorting.WithKey(SortOldestFirst(s), OldestFirstKey, k) == Sorting.WithKey(s, OldestFirstKey, k)
    ensures Sorting.WithKey(SortNewestFirst(s), NewestFirstKey, k) == Sorting.WithKey(s, NewestFirstKey, k)
  {
    Sorting.SortIsStable(s, OldestFirstKey, k);
    Sorting.SortIsStable(s, NewestFirstKey, k);
  }

  /** The time key orders tasks as their dates do. */
  lemma TimeOrdersDates(a: Task, b: Task)
    ensures Time(a) <= Time(b) <==> DayNumber(a.date) <= DayNumber(b.date)
  {
  }

  lemma {:induction false} OrdersAgree(r: seq<Task>)
    ensures OldestFirst(r) <==> Sorting.SortedBy(r, OldestFirstKey)
    ensures NewestFirst(r) <==> Sorting.SortedBy(r, NewestFirstKey)
  {
    forall i, j | 0 <= i < j < |r|
      ensures Time(r[i]) <= Time(r[j]) <==> DayNumber(r[i].date) <= DayNumber(r[j].date)
      ensures Time(r[j]) <= Time(r[i]) <==> DayNumber(r[j].date) <= DayNumber(r[i].date)
    {
      TimeOrdersDates(r[i], r[j]);
      TimeOrdersDates(r[j], r[i]);
    }
  }

  /** The newest-first sort has exactly one possible result: the list in
      newest-first order in which tasks of one date keep their relative
      order. */
  lemma SortNewestFirstCharacterized(s: seq<Task>, r: seq<Task>)
    ensures r == SortNewestFirst(s) <==> NewestFirst(r) && Sorting.SameOrderPerKey(r, s, NewestFirstKey)
  {
    OrdersAgree(r);
    Sorting.SortCharacterized(s, r, NewestFirstKey);
  }

  /** The same for the oldest-first sort. */
  lemma SortOldestFirstCharacterized(s: seq<Task>, r: seq<Task>)
    ensures r == SortOldestFirst(s) <==> OldestFirst(r) && Sorting.SameOrderPerKey(r, s, OldestFirstKey)
  {
    OrdersAgree(r);
    Sorting.SortCharacterized(s, r, OldestFirstKey);
  }

  /** Sorting a second time changes nothing: `sampleTasks.sort` sorts the
      shared array in place, so each later opening of the view sees it
      already sorted. */
  lemma SortOldestFirstIdempotent(s: seq<Task>)
    ensures SortOldestFirst(SortOldestFirst(s)) == SortOldestFirst(s)
  {
    Sorting.SortIdempotent(s, OldestFirstKey);
  }

  /** The card's time text, `${startTime} - ${endTime}`. */
  function TimeRange(t: Task): (s: string)
    ensures |s| == |t.startTime| + 3 + |t.endTime|
    ensures s[..|t.startTime|] == t.startTime && s[|t.startTime| + 3..] == t.endTime
    ensures s[|t.startTime|..|t.startTime| + 3] == " - "
  {
    t.startTime + " - " + t.endTime
  }

  /** Start times of one length (the 'HH:MM' form) make the time text
      determine both times. */
  lemma TimeRangeInjective(a: Task, b: Task)
    requires |a.startTime| == |b.startTime|
    ensures TimeRange(a) == TimeRange(b) <==> a.startTime == b.startTime && a.endTime == b.endTime
  {
  }

  /** One `#tag` text per tag, in the tags' order. */
  function TagTexts(tags: seq<string>): (r: seq<string>)
    ensures |r| == |tags|
    ensures forall i :: 0 <= i < |r| ==> |r[i]| == |tags[i]| + 1 && r[i][0] == '#'
  {
    seq(|tags|, i requires 0 <= i < |tags| => "#" + tags[i])
  }

  /** Dropping the `#` from each text gives the tags back, in order. */
  lemma TagTextsRoundTrip(tags: seq<string>)
    ensures seq(|tags|, i requires 0 <= i < |tags| => TagTexts(tags)[i][1..]) == tags
  {
    var r := TagTexts(tags);
    forall i | 0 <= i < |tags|
      ensures r[i][1..] == tags[i]
    {
      assert r[i] == "#" + tags[i];
    }
  }
}

=== FILE: text.dfy ===
/** Optional values, for partial decoders. */
module Wrappers {
  datatype Option<+T> = None | Some(value: T)
}

/** Decimal text of non-negative integers, as ECMAScript's
    `Number.prototype.toString()` and `String.prototype.padStart` produce it,
    with the digit reading that inverts it. */
module Decimal {

  predicate IsDigit(c: char) {
    '0' <= c <= '9'
  }

  predicate AllDigits(s: string) {
    forall i :: 0 <= i < |s| ==> IsDigit(s[i])
  }

  function DigitChar(n: int): (c: char)
    requires 0 <= n <= 9
    ensures IsDigit(c) && DigitValue(c) == n
  {
    "0123456789"[n]
  }

  function DigitValue(c: char): int
    requires IsDigit(c)
  {
    (c as int) - ('0' as int)
  }

  /** The number a string of decimal digits denotes (leading zeros allowed). */
  function DigitsValue(s: string): nat
    requires AllDigits(s)
  {
    if |s| == 0 then 0
    else DigitsValue(s[..|s| - 1]) * 10 + DigitValue(s[|s| - 1])
  }

  function Pow10(k: nat): nat {
    if k == 0 then 1 else 10 * Pow10(k - 1)
  }

  /** `n.toString()`: the shortest decimal spelling, no leading zero. */
  function NatToString(n: nat): (s: string)
    ensures 1 <= |s| && AllDigits(s)
    ensures |s| > 1 ==> s[0] != '0'
  {
    if n < 10 then [DigitChar(n)]
    else NatToString(n / 10) + [DigitChar(n % 10)]
  }

  /** Reading the digits back gives the number. */
  lemma {:induction false} NatToStringRoundTrip(n: nat)
    ensures DigitsValue(NatToString(n)) == n
    decreases n
  {
    if n >= 10 {
      var s := NatToString(n);
      assert s[..|s| - 1] == NatToString(n / 10);
      NatToStringRoundTrip(n / 10);
    }
  }

  lemma NatToStringInjective(a: nat, b: nat)
    ensures NatToString(a) == NatToString(b) <==> a == b
  {
    NatToStringRoundTrip(a);
    NatToStringRoundTrip(b);
  }

  /** A number below 10^k needs at most k digits. */
  lemma {:induction false} NatToStringLength(n: nat, k: nat)
    requires 1 <= k && n < Pow10(k)
    ensures |NatToString(n)| <= k
    decreases k
  {
    if n >= 10 {
      assert Pow10(1) == 10;
      assert n / 10 < Pow10(k - 1);
      NatToStringLength(n / 10, k - 1);
    }
  }

  /** `s.padStart(n, c)` with a one-character pad string. */
  function PadStart(s: string, n: nat, c: char): (r: string)
    ensures |r| == if |s| >= n then |s| else n
    ensures r[|r| - |s|..] == s
    ensures forall i :: 0 <= i < |r| - |s| ==> r[i] == c
  {
    if |s| >= n then s else seq(n - |s|, _ => c) + s
  }

  /** Leading zeros do not change the value of a digit string. */
  lemma {:induction false} LeadingZeros(z: string, s: string)
    requires AllDigits(s) && forall i :: 0 <= i < |z| ==> z[i] == '0'
    ensures AllDigits(z + s) && DigitsValue(z + s) == DigitsValue(s)
    decreases |s|
  {
    if |s| == 0 {
      assert z + s == z;
      ZerosValue(z);
    } else {
      var t := z + s;
      assert t[..|t| - 1] == z + s[..|s| - 1];
      LeadingZeros(z, s[..|s| - 1]);
    }
  }

  lemma {:induction false} ZerosValue(z: string)
    requires forall i :: 0 <= i < |z| ==> z[i] == '0'
    ensures AllDigits(z) && DigitsValue(z) == 0
    decreases |z|
  {
    if |z| > 0 {
      ZerosValue(z[..|z| - 1]);
    }
  }

  /** Zero-padding to a width `n.toString()` fits in keeps the value. */
  lemma PaddedValue(n: nat, k: nat)
    ensures AllDigits(PadStart(NatToString(n), k, '0'))
    ensures DigitsValue(PadStart(NatToString(n), k, '0')) == n
  {
    var s := NatToString(n);
    var r := PadStart(s, k, '0');
    NatToStringRoundTrip(n);
    if |s| < k {
      var z := r[..|r| - |s|];
      assert r == z + s;
      LeadingZeros(z, s);
    }
  }

  /** `n.toString().padStart(k, '0')` for `n < 10^k` has exactly `k` digits
      whose value is `n`. */
  function Padded(n: nat, k: nat): (r: string)
    requires 1 <= k && n < Pow10(k)
    ensures |r| == k && AllDigits(r) && DigitsValue(r) == n
  {
    NatToStringLength(n, k);
    PaddedValue(n, k);
    PadStart(NatToString(n), k, '0')
  }

  /** Digit strings of one length with one value are the same string, so a
      fixed-width field reads back to exactly one spelling. */
  lemma {:induction false} DigitsInjective(a: string, b: string)
    requires AllDigits(a) && AllDigits(b) && |a| == |b|
    requires DigitsValue(a) == DigitsValue(b)
    ensures a == b
    decreases |a|
  {
    if |a| > 0 {
      var n := |a| - 1;
      assert DigitValue(a[n]) == DigitsValue(a) % 10;
      assert DigitValue(b[n]) == DigitsValue(b) % 10;
      assert DigitsValue(a[..n]) == DigitsValue(a) / 10;
      assert DigitsValue(b[..n]) == DigitsValue(b) / 10;
      DigitsInjective(a[..n], b[..n]);
      assert a == a[..n] + [a[n]];
      assert b == b[..n] + [b[n]];
    }
  }
}

=== FILE: timeline.dfy ===
/** The React timeline (`TaskView` in src/components/TaskView.tsx) as a pure
    function from the task list to rows. Each row holds the headers shown
    before one task's card (year, month, date with an optional week badge)
    and the card itself; `None` is a header that is not rendered. */
module Timeline {
  import opened Wrappers
  import opened Calendar
  import opened Decimal
  import opened IsoWeek
  import opened Tasks

  /** The weekday names `days[getDay()]`, Sunday first. */
  const WeekdayNames: string := "日一二三四五六"

  /** `getWeekDay`: '周' and the weekday's name. */
  function WeekDayLabel(d: CivilDate): (s: string)
    ensures |s| == 2 && s[0] == '周'
  {
    ['周', WeekdayNames[Weekday(d)]]
  }

  /** The label tells the weekday: equal labels, equal weekdays, and the
      label repeats every seven days. */
  lemma WeekDayLabelNamesWeekday(a: CivilDate, b: CivilDate)
    ensures WeekDayLabel(a) == WeekDayLabel(b) <==> Weekday(a) == Weekday(b)
    ensures WeekDayLabel(a) == "周日" <==> Weekday(a) == 0
  {
    var wa := Weekday(a);
    var wb := Weekday(b);
    WeekdayNamesDistinct(wa, wb);
    WeekdayNamesDistinct(wa, 0);
  }

  /** The whole name table, Sunday (`getDay() == 0`) to Saturday. */
  lemma WeekDayLabelTable(d: CivilDate)
    ensures Weekday(d) == 0 <==> WeekDayLabel(d) == "周日"
    ensures Weekday(d) == 1 <==> WeekDayLabel(d) == "周一"
    ensures Weekday(d) == 2 <==> WeekDayLabel(d) == "周二"
    ensures Weekday(d) == 3 <==> WeekDayLabel(d) == "周三"
    ensures Weekday(d) == 4 <==> WeekDayLabel(d) == "周四"
    ensures Weekday(d) == 5 <==> WeekDayLabel(d) == "周五"
    ensures Weekday(d) == 6 <==> WeekDayLabel(d) == "周六"
  {
  }

  lemma WeekdayNamesDistinct(i: int, j: int)
    requires 0 <= i < 7 && 0 <= j < 7
    ensures WeekdayNames[i] == WeekdayNames[j] <==> i == j
  {
  }

  /** The label repeats every seven days. */
  lemma WeekDayLabelWeekly(a: CivilDate, b: CivilDate)
    requires (DayNumber(b) - DayNumber(a)) % 7 == 0
    ensures WeekDayLabel(a) == WeekDayLabel(b)
  {
    WeekdayPeriodic(a, b);
  }

  /** The status icon: its class and its glyph. */
  datatype Icon = Icon(className: string, content: string)

  /** `renderTaskStatusIcon`: the switch over the status, with the empty
      class suffix and glyph for any status it does not name. */
  function StatusIcon(status: string): (icon: Icon)
    ensures "task-icon " <= icon.className
  {
    var (iconClass, iconContent) :=
      if status == "todo" then ("task-todo", "☐")
      else if status == "in-progress" then ("task-in-progress", "")
      else if status == "done" then ("task-done", "✓")
      else ("", "");
    Icon("task-icon " + iconClass, iconContent)
  }

  predicate KnownStatus(status: string) {
    status == "todo" || status == "in-progress" || status == "done"
  }

  /** The three statuses get three different icons, each with its own class;
      every other status gets the bare class and no glyph. */
  lemma StatusIconTable(a: string, b: string)
    ensures StatusIcon(a).className == "task-icon task-" + a <==> KnownStatus(a)
    ensures !KnownStatus(a) ==> StatusIcon(a) == Icon("task-icon ", "")
    ensures KnownStatus(a) && KnownStatus(b) ==> (StatusIcon(a) == StatusIcon(b) <==> a == b)
    ensures StatusIcon(a).content == "☐" <==> a == "todo"
    ensures StatusIcon(a).content == "✓" <==> a == "done"
    ensures StatusIcon(a).content == "" <==> a != "todo" && a != "done"
  {
    if StatusIcon(a).className == "task-icon task-" + a {
      var c := StatusIcon(a).className;
      assert |c| > |"task-icon "|;
    }
  }

  /** The week badge text `${year}-W${week.toString().padStart(2, '0')}`. */
  function WeekLabel(year: nat, week: nat): (s: string)
    requires week < 100
    ensures var n := |NatToString(year)|;
      |s| == n + 4 && s[..n] == NatToString(year) && s[n] == '-' && s[n + 1] == 'W'
      && AllDigits(s[n + 2..]) && DigitsValue(s[n + 2..]) == week
  {
    assert Pow10(2) == 100;
    var y := NatToString(year);
    var r := "-W" + Padded(week, 2);
    assert r[2..] == Padded(week, 2);
    AppendParts(y, r);
    y + r
  }

  /** A concatenation splits back into its parts. */
  lemma AppendParts(x: string, r: string)
    ensures (x + r)[..|x|] == x && (x + r)[|x|..] == r
  {
  }

  /** `renderWeekNumber`'s badge for a date: the date's calendar year (not
      its week-numbering year) with its ISO week number. */
  function WeekBadge(d: TaskDate): (s: string)
    ensures var n := |NatToString(d.year)|;
      |s| == n + 4 && s[..n] == NatToString(d.year) && s[n] == '-' && s[n + 1] == 'W'
      && AllDigits(s[n + 2..]) && DigitsValue(s[n + 2..]) == WeekNumber(d)
  {
    WeekLabel(d.year, WeekNumber(d))
  }

  /** The length of the run of digits `s` starts with. */
  function DigitRun(s: string): nat {
    if |s| == 0 || !IsDigit(s[0]) then 0 else 1 + DigitRun(s[1..])
  }

  lemma {:induction false} DigitRunOfConcat(x: string, r: string)
    requires AllDigits(x) && |r| > 0 && !IsDigit(r[0])
    ensures DigitRun(x + r) == |x|
    decreases |x|
  {
    if |x| > 0 {
      assert (x + r)[1..] == x[1..] + r;
      DigitRunOfConcat(x[1..], r);
    } else {
      assert x + r == r;
    }
  }

  /** A digit string, then a non-digit: the split point of a concatenation
      is determined. */
  lemma DigitPrefixSplit(x1: string, x2: string, r1: string, r2: string)
    requires AllDigits(x1) && AllDigits(x2)
    requires |r1| > 0 && |r2| > 0 && !IsDigit(r1[0]) && !IsDigit(r2[0])
    requires x1 + r1 == x2 + r2
    ensures x1 == x2 && r1 == r2
  {
    DigitRunOfConcat(x1, r1);
    DigitRunOfConcat(x2, r2);
    assert x1 == (x1 + r1)[..|x1|];
    assert x2 == (x2 + r2)[..|x2|];
    assert r1 == (x1 + r1)[|x1|..];
    assert r2 == (x2 + r2)[|x2|..];
  }

  /** The badge tells the year and the week number, and nothing else. */
  lemma WeekLabelNamesYearAndWeek(y1: nat, w1: nat, y2: nat, w2: nat)
    requires w1 < 100 && w2 < 100
    ensures WeekLabel(y1, w1) == WeekLabel(y2, w2) <==> y1 == y2 && w1 == w2
  {
    assert Pow10(2) == 100;
    if WeekLabel(y1, w1) == WeekLabel(y2, w2) {
      var r1 := "-W" + Padded(w1, 2);
      var r2 := "-W" + Padded(w2, 2);
      DigitPrefixSplit(NatToString(y1), NatToString(y2), r1, r2);
      NatToStringInjective(y1, y2);
      assert r1[2..] == Padded(w1, 2);
      assert r2[2..] == Padded(w2, 2);
    }
  }

  /** 30 December 2024 is in week 1 of ISO year 2025, and its badge reads
      "2024-W01": the badge pairs the week with the calendar year, not the
      week-numbering year. */
  lemma LateDecemberBadge()
    ensures WeekYear(Date(2024, 12, 30)) == 2025
    ensures WeekBadge(Date(2024, 12, 30)) == "2024-W01"
  {
    LateDecemberWeek();
    LabelOfWeek1In2024();
  }

  lemma LateDecemberWeek()
    ensures WeekYear(Date(2024, 12, 30)) == 2025 && WeekNumber(Date(2024, 12, 30)) == 1
  {
    var d := Date(2024, 12, 30);
    assert Weekday(d) == 1;
    var t := ThursdayOf(d);
    DayNumberInjective(t, Date(2025, 1, 2));
    WeekNumberOfThursday(d);
  }

  lemma LabelOfWeek1In2024()
    ensures WeekLabel(2024, 1) == "2024-W01"
  {
    Year2024Text();
    Week1Text();
  }

  lemma Year2024Text()
    ensures NatToString(2024) == "2024"
  {
  }

  lemma Week1Text()
    ensures Padded(1, 2) == "01"
  {
    assert Pow10(2) == 100;
    assert NatToString(1) == "1";
    assert seq(1, _ => '0') == "0";
  }

  /** The month header's key: the year and month the locale's month name
      is shown for. */
  datatype MonthKey = MonthKey(year: int, month: int)

  /** The `timeline-date` header: its `data-date`, the optional week badge,
      and the text `${task.date} ${weekDay}`. */
  datatype DateHeader = DateHeader(dataDate: string, week: Option<string>, text: string)

  /** The `timeline-item` card. */
  datatype Card = Card(
    dataDate: string,
    startTime: string,
    icon: Icon,
    timeText: string,
    content: string,
    tags: seq<string>)

  datatype Row = Row(year: Option<string>, month: Option<MonthKey>, date: Option<DateHeader>, card: Card)

  function YearText(d: TaskDate): string {
    NatToString(d.year)
  }

  function MonthOf(d: TaskDate): MonthKey {
    MonthKey(d.year, d.month)
  }

  /** `showYear`: the first row, or a year string unlike the previous task's. */
  predicate ShowYear(tasks: seq<Task>, i: nat): (r: bool)
    requires i < |tasks|
    ensures r <==> i == 0 || tasks[i].date.year != tasks[i - 1].date.year
  {
    if i == 0 then true
    else
      NatToStringInjective(tasks[i].date.year, tasks[i - 1].date.year);
      YearText(tasks[i].date) != YearText(tasks[i - 1].date)
  }

  /** `showMonth`: the first row, or a (year, month) unlike the previous
      task's. */
  predicate ShowMonth(tasks: seq<Task>, i: nat): (r: bool)
    requires i < |tasks|
    ensures r <==> i == 0 || tasks[i].date.year != tasks[i - 1].date.year
                          || tasks[i].date.month != tasks[i - 1].date.month
  {
    i == 0 || MonthOf(tasks[i].date) != MonthOf(tasks[i - 1].date)
  }

  /** `showDate`: the first row, or a `date` string unlike the previous
      task's. */
  predicate ShowDate(tasks: seq<Task>, i: nat): (r: bool)
    requires i < |tasks|
    ensures r <==> i == 0 || tasks[i].date != tasks[i - 1].date
  {
    if i == 0 then true
    else
      DateTextInjective(tasks[i].date, tasks[i - 1].date);
      DateText(tasks[i].date) != DateText(tasks[i - 1].date)
  }

  /** `showWeek` in `renderWeekNumber`: the first row, or a week number
      unlike the previous task's (the year is not compared). */
  predicate ShowWeek(tasks: seq<Task>, i: nat): (r: bool)
    requires i < |tasks|
    ensures i == 0 ==> r
    ensures i > 0 && WeekYear(tasks[i - 1].date) == WeekYear(tasks[i].date)
            ==> (r <==> !SameWeek(tasks[i - 1].date, tasks[i].date))
  {
    if i == 0 then true
    else
      SameWeekIffSameNumber(tasks[i - 1].date, tasks[i].date);
      WeekNumber(tasks[i - 1].date) != WeekNumber(tasks[i].date)
  }

  function CardOf(t: Task): Card {
    Card(DateText(t.date), t.startTime, StatusIcon(t.status), TimeRange(t), t.content, TagTexts(t.tags))
  }

  /** The body of `tasks.map` for the task at `index`. */
  function RenderRow(tasks: seq<Task>, i: nat): (row: Row)
    requires i < |tasks|
    ensures row.card == CardOf(tasks[i])
    ensures row.year.Some? ==> row.year.value == NatToString(tasks[i].date.year)
    ensures row.month.Some? ==> row.month.value == MonthKey(tasks[i].date.year, tasks[i].date.month)
    ensures row.date.Some? ==>
              && row.date.value.dataDate == DateText(tasks[i].date)
              && row.date.value.text == DateText(tasks[i].date) + " " + WeekDayLabel(tasks[i].date)
  {
    var d := tasks[i].date;
    Row(
      if ShowYear(tasks, i) then Some(YearText(d)) else None,
      if ShowMonth(tasks, i) then Some(MonthOf(d)) else None,
      if ShowDate(tasks, i) then
        Some(DateHeader(
          DateText(d),
          if ShowWeek(tasks, i) then Some(WeekBadge(d)) else None,
          DateText(d) + " " + WeekDayLabel(d)))
      else None,
      CardOf(tasks[i]))
  }

  /** The whole timeline, one row per task in list order. */
  function Render(tasks: seq<Task>): (rows: seq<Row>)
    ensures |rows| == |tasks|
    ensures forall i :: 0 <= i < |rows| ==> rows[i] == RenderRow(tasks, i)
  {
    seq(|tasks|, i requires 0 <= i < |tasks| => RenderRow(tasks, i))
  }

  /** The timeline once the mount effect has sorted the tasks newest first. */
  function Mounted(tasks: seq<Task>): (rows: seq<Row>)
    ensures |rows| == |tasks|
    ensures forall i :: 0 <= i < |rows| ==> rows[i] == RenderRow(SortNewestFirst(tasks), i)
  {
    Render(SortNewestFirst(tasks))
  }

  /** Headers nest: a year header comes with a month header, a month header
      with a date header, and the first row has all three. */
  lemma HeadersNest(tasks: seq<Task>, i: nat)
    requires i < |tasks|
    ensures var row := Render(tasks)[i];
      (row.year.Some? ==> row.month.Some?)
      && (row.month.Some? ==> row.date.Some?)
      && (i == 0 ==> row.year.Some? && row.month.Some? && row.date.Some? && row.date.value.week.Some?)
  {
    if i > 0 {
      NatToStringInjective(tasks[i].date.year, tasks[i - 1].date.year);
      DateTextInjective(tasks[i].date, tasks[i - 1].date);
    }
  }

  /** Tasks on one date stand next to each other. */
  ghost predicate DatesGrouped(tasks: seq<Task>) {
    forall i, j, k :: 0 <= i < j < k < |tasks| && tasks[i].date == tasks[k].date ==> tasks[j].date == tasks[i].date
  }

  /** A list sorted by date, either way, keeps each date's tasks together. */
  lemma SortedGroupsDates(tasks: seq<Task>)
    requires NewestFirst(tasks) || OldestFirst(tasks)
    ensures DatesGrouped(tasks)
  {
    forall i, j, k | 0 <= i < j < k < |tasks| && tasks[i].date == tasks[k].date
      ensures tasks[j].date == tasks[i].date
    {
      DayNumberInjective(tasks[j].date, tasks[i].date);
    }
  }

  /** No task before the one at `i` has its date. */
  predicate FirstOfDate(tasks: seq<Task>, i: nat)
    requires i < |tasks|
  {
    forall j :: 0 <= j < i ==> tasks[j].date != tasks[i].date
  }

  /** With each date's tasks together, a row has a date header exactly when
      its task is the first one on that date. */
  lemma DateHeaderAtFirstOccurrence(tasks: seq<Task>, i: nat)
    requires DatesGrouped(tasks) && i < |tasks|
    ensures Render(tasks)[i].date.Some? <==> FirstOfDate(tasks, i)
  {
    if i > 0 {
      RowDateHeader(tasks, i);
      FirstOfDateInGroups(tasks, i);
    } else {
      HeadersNest(tasks, i);
    }
  }

  /** With each date's tasks together, a task is the first of its date
      exactly when the task before it has another date. */
  lemma FirstOfDateInGroups(tasks: seq<Task>, i: nat)
    requires DatesGrouped(tasks) && 0 < i < |tasks|
    ensures FirstOfDate(tasks, i) <==> tasks[i - 1].date != tasks[i].date
  {
    if !FirstOfDate(tasks, i) {
      var j :| 0 <= j < i && tasks[j].date == tasks[i].date;
      if j < i - 1 {
        assert tasks[i - 1].date == tasks[j].date;
      }
    }
  }

  /** The dates of the first `n` tasks. */
  function DatesBefore(tasks: seq<Task>, n: nat): set<TaskDate>
    requires n <= |tasks|
  {
    set i | 0 <= i < n :: tasks[i].date
  }

  /** The number of date headers among the first `n` rows. */
  function DateHeaderCount(rows: seq<Row>, n: nat): nat
    requires n <= |rows|
  {
    if n == 0 then 0
    else DateHeaderCount(rows, n - 1) + (if rows[n - 1].date.Some? then 1 else 0)
  }

  /** The number of tasks among the first `n` that are the first of their
      date. */
  function FirstCount(tasks: seq<Task>, n: nat): nat
    requires n <= |tasks|
  {
    if n == 0 then 0
    else FirstCount(tasks, n - 1) + (if FirstOfDate(tasks, n - 1) then 1 else 0)
  }

  /** Every date is first met once. */
  lemma {:induction false} FirstCountIsDates(tasks: seq<Task>, n: nat)
    requires n <= |tasks|
    ensures FirstCount(tasks, n) == |DatesBefore(tasks, n)|
  {
    if n > 0 {
      FirstCountIsDates(tasks, n - 1);
      var d := tasks[n - 1].date;
      assert DatesBefore(tasks, n) == DatesBefore(tasks, n - 1) + {d};
      if !FirstOfDate(tasks, n - 1) {
        var j :| 0 <= j < n - 1 && tasks[j].date == d;
        assert d in DatesBefore(tasks, n - 1);
      }
    }
  }

  /** `rows` has a date header exactly at the first task of each date. */
  ghost predicate HeadersAtFirsts(rows: seq<Row>, tasks: seq<Task>)
    requires |rows| == |tasks|
  {
    forall i :: 0 <= i < |rows| ==> (rows[i].date.Some? <==> FirstOfDate(tasks, i))
  }

  lemma {:induction false} CountHeadersAtFirsts(rows: seq<Row>, tasks: seq<Task>, n: nat)
    requires |rows| == |tasks| && n <= |tasks|
    requires HeadersAtFirsts(rows, tasks)
    ensures DateHeaderCount(rows, n) == FirstCount(tasks, n)
  {
    if n > 0 {
      CountHeadersAtFirsts(rows, tasks, n - 1);
    }
  }

  /** On a list with each date's tasks together there are exactly as many
      date headers as distinct dates. */
  lemma OneDateHeaderPerDate(tasks: seq<Task>, n: nat)
    requires DatesGrouped(tasks) && n <= |tasks|
    ensures DateHeaderCount(Render(tasks), n) == |DatesBefore(tasks, n)|
  {
    var rows := Render(tasks);
    forall i | 0 <= i < |rows|
      ensures rows[i].date.Some? <==> FirstOfDate(tasks, i)
    {
      DateHeaderAtFirstOccurrence(tasks, i);
    }
    CountHeadersAtFirsts(rows, tasks, n);
    FirstCountIsDates(tasks, n);
  }

  /** Each date of the list has one date header, at the first of its tasks. */
  lemma DateHeaderUnique(tasks: seq<Task>, i: nat, j: nat)
    requires DatesGrouped(tasks) && i < j < |tasks|
    requires tasks[i].date == tasks[j].date
    ensures Render(tasks)[j].date.None?
  {
    DateHeaderAtFirstOccurrence(tasks, j);
  }

  /** The week badge sits inside a date header only, and is the badge of the
      row's own date. */
  lemma WeekBadgeInDateHeader(tasks: seq<Task>, i: nat)
    requires i < |tasks|
    ensures var row := Render(tasks)[i];
      row.date.Some? && row.date.value.week.Some?
      ==> row.date.value.week == Some(WeekBadge(tasks[i].date)) && ShowWeek(tasks, i)
  {
  }

  /** Two tasks in one Monday-to-Sunday week never show a badge between them. */
  lemma NoBadgeWithinWeek(tasks: seq<Task>, i: nat)
    requires 0 < i < |tasks|
    requires SameWeek(tasks[i - 1].date, tasks[i].date)
    ensures Render(tasks)[i].date.Some? ==> Render(tasks)[i].date.value.week.None?
  {
    SameWeekIffSameNumber(tasks[i - 1].date, tasks[i].date);
  }

  /** The first task of a new week of the same week-numbering year shows
      the badge. */
  lemma BadgeOnNewWeek(tasks: seq<Task>, i: nat)
    requires 0 < i < |tasks|
    requires !SameWeek(tasks[i - 1].date, tasks[i].date)
    requires WeekYear(tasks[i - 1].date) == WeekYear(tasks[i].date)
    ensures Render(tasks)[i].date.Some? && Render(tasks)[i].date.value.week.Some?
  {
    SameWeekIffSameNumber(tasks[i - 1].date, tasks[i].date);
    DateTextInjective(tasks[i - 1].date, tasks[i].date);
  }

  /** The headers of a row after the first follow the change from the
      previous task's date: a year header when the year changes, a month
      header when the month changes, a date header when the date changes,
      and inside it a badge when the week number changes. */
  lemma RowYearHeader(tasks: seq<Task>, i: nat)
    requires 0 < i < |tasks|
    ensures Render(tasks)[i].year.Some? <==> tasks[i - 1].date.year != tasks[i].date.year
  {
    NatToStringInjective(tasks[i - 1].date.year, tasks[i].date.year);
  }

  lemma RowMonthHeader(tasks: seq<Task>, i: nat)
    requires 0 < i < |tasks|
    ensures Render(tasks)[i].month.Some? <==> MonthOf(tasks[i - 1].date) != MonthOf(tasks[i].date)
  {
  }

  lemma RowDateHeader(tasks: seq<Task>, i: nat)
    requires 0 < i < |tasks|
    ensures Render(tasks)[i].date.Some? <==> tasks[i - 1].date != tasks[i].date
  {
    DateTextInjective(tasks[i - 1].date, tasks[i].date);
  }

  lemma RowWeekBadge(tasks: seq<Task>, i: nat)
    requires 0 < i < |tasks|
    ensures var row := Render(tasks)[i];
      row.date.Some? ==> (row.date.value.week.Some? <==> WeekNumber(tasks[i - 1].date) != WeekNumber(tasks[i].date))
  {
  }

  /** A task of another year but the same week number as the one before it
      opens a year header and gets no week badge. */
  lemma BadgeComparesWeekNumberOnly(tasks: seq<Task>, i: nat)
    requires 0 < i < |tasks|
    requires tasks[i - 1].date.year != tasks[i].date.year
    requires WeekNumber(tasks[i - 1].date) == WeekNumber(tasks[i].date)
    ensures var row := Render(tasks)[i];
      row.year.Some? && row.date.Some? && row.date.value.week.None?
  {
    RowYearHeader(tasks, i);
    RowDateHeader(tasks, i);
    RowWeekBadge(tasks, i);
  }

  /** 19 June 2024 and 21 June 2023 are both in week 25, so 21 June 2023
      listed after 19 June 2024 meets the conditions above. */
  lemma JuneWeeks()
    ensures WeekNumber(Date(2024, 6, 19)) == 25 && WeekNumber(Date(2023, 6, 21)) == 25
  {
    June19Of2024();
    June21Of2023();
  }

  lemma June19Of2024()
    ensures WeekNumber(Date(2024, 6, 19)) == 25
  {
    Week25(Date(2024, 6, 19), Date(2024, 6, 20));
  }

  lemma June21Of2023()
    ensures WeekNumber(Date(2023, 6, 21)) == 25
  {
    Week25(Date(2023, 6, 21), Date(2023, 6, 22));
  }

  /** A Wednesday whose Thursday is in week 25. */
  lemma Week25(d: CivilDate, t: CivilDate)
    requires Weekday(d) == 3 && DayNumber(t) == DayNumber(d) + 1
    requires 168 < OrdinalDay(t) <= 175
    ensures WeekNumber(d) == 25
  {
    DayNumberInjective(ThursdayOf(d), t);
    WeekNumberOfThursday(d);
  }
}
